=== FILE: README.md ===
# lud / bbusb: a Dafny model of the libusb wrapper core

`bbusb` is a thin C++ wrapper over libusb (`src/bbusb.hpp`; `src/lud.cpp`
holds an earlier revision of the same code together with a small test
`main`). The model covers its logic:

- device enumeration, the `bus << 8 | address` device identifier, and the
  vendor/product filter;
- opening the first device with a given identifier;
- the `usb_device` snapshot with its reference counting;
- the string-descriptor decoder, from UTF-16LE to UTF-8;
- the open-device session with its claimed flag;
- the log-level table;
- the `TEST_MODE` sequence of `main`.

libusb is not modelled. Each native call is an input:

- An `Entry` carries what libusb returns for one position of the device
  list: bus number, address, descriptors and return codes. The device
  descriptor is read twice on the way to a `usb_device`, once by
  `list_devices` and once by the constructor, and each read has its own
  return code. Each path reads the first configuration descriptor at most
  once, so one code serves for it.
- The list call, the probe and the read of a string descriptor, and every
  session call are integer return codes.

A C++ `throw` is a `Thrown` value of `Result`. The following native calls
are recorded in a `Call` trace that the operation returns:

- freeing the device list;
- ref and unref of a device;
- freeing a configuration descriptor;
- opening and closing a handle;
- claim and release attempts.

The calls that obtain the device list or a configuration descriptor are not
recorded: what they return is an input, and only the matching free appears
in the trace. The trace identifies a device by its position in the native
list. `Count` says how often a call occurs in a trace.

Modules, by file:

| module | file | models |
|---|---|---|
| `Native` | native.dfy | bytes, errors, results, the call trace, `scope_exit` |
| `Utf8` | utf8.dfy | UTF-8 as in section 3 of RFC 3629, with a strict decoder used as its inverse |
| `StringDescriptors` | string_descriptor.dfy | `usb_device::string_descriptor`, and the signed-`char` reading of it |
| `Devices` | devices.dfy | `usb_device`: identifier, constructor, destructor |
| `Sessions` | sessions.dfy | `usb_device_handle` (`usb_device` in src/lud.cpp) |
| `Logging`, `Manager` | manager.dfy | `usb_manager::set_log_level`, `list_devices`, `find_devices`, `open` |
| `TestMode` | testmode.dfy | the `TEST_MODE` block of `main` in src/lud.cpp |

src/lud.cpp repeats most of this code:

- `scope_exit` at lines 22-34;
- `set_log_level` at 62-71;
- `find_devices` at 102-131;
- `open` at 141-179;
- the session class, named `usb_device` there, at 215-287.

These match `scope_exit`, `usb_manager` and `usb_device_handle` of
src/bbusb.hpp line for line. The model states each of them once. The table
below cites either file, whichever the member's property is stated for.

Two behaviours of the code are easy to miss. The model follows the code in
both:

- The `usb_device` constructor takes its device reference before it reads
  the descriptors. When a read fails it throws without giving the reference
  back, and no destructor runs. `ConstructDevice` and `ListDevices` say so:
  a failed construction leaves one ref and no unref.
- The decoder does not combine UTF-16 surrogate pairs.
  `std::codecvt_utf8<wchar_t>` treats each 16-bit unit as a code point on
  its own. With libc++, a surrogate unit therefore makes `to_bytes` throw
  `std::range_error` (`RangeError`), and that exception escapes
  `string_descriptor`.

## Model

| member | source | states |
|---|---|---|
| Native.ScopeExit | src/bbusb.hpp:27-39 | the deferred action is appended to the trace exactly once, after everything the body did, whether the body returned or threw; the outcome is the body's and no other call's count changes |
| Native.OrShift8Value | src/bbusb.hpp:75 | `low` OR `(high << 8)` on two unsigned bytes equals `low + 256 * high` |
| Devices.DeviceId | src/bbusb.hpp:74-76 | the identifier lies in 0..65535; dividing it by 256 gives back the bus number and the remainder gives back the address |
| Devices.DeviceIdInjective | src/bbusb.hpp:299 | two identifiers are equal exactly when their bus numbers and their addresses are equal |
| Devices.DeviceIdOnto | src/lud.cpp:158 | every value in 0..65535 is the identifier of one bus/address pair |
| Devices.ConstructDevice | src/bbusb.hpp:54-67 | construction takes exactly one reference; it succeeds exactly when the constructor's device-descriptor read and its configuration read both return LIBUSB_SUCCESS, and then snapshots the entry; otherwise it throws the first return code that is not LIBUSB_SUCCESS and gives no unref |
| Devices.DestroyDevice | src/bbusb.hpp:69-72 | destruction frees the configuration descriptor once and unrefs the device once |
| Devices.ConstructDestroyBalanced | src/bbusb.hpp:54-72 | a successful construction followed by destruction makes one ref, one unref and one descriptor free, so the reference count returns to where it was |
| Logging.SetLogLevel | src/bbusb.hpp:176-185 | the table has an entry for every enumerator, so `map.at` never throws; each enumerator selects the libusb level 0..4 at its own position in the declaration order |
| Logging.SetLogLevelInjective | src/lud.cpp:62-71 | different enumerators select different levels; `none` selects 0 and `debug` the highest level, and no other enumerator does |
| Logging.SetLogLevelOnto | src/bbusb.hpp:177-183 | every libusb level 0..4 is selected by the enumerator at that position |
| Manager.FindDevices | src/bbusb.hpp:243-272 | a failed list call throws its code and frees nothing; otherwise the list is freed exactly once; the result is the ids of the matching entries in list order, or, when some descriptor read fails, the first such code |
| Manager.SelectedMembers | src/lud.cpp:114-128 | an id is reported exactly when some entry passes the positive-only vendor/product filter and carries that id |
| Manager.SelectedAppend | src/lud.cpp:112-130 | filtering a concatenated list gives the filtered first part followed by the filtered second part, so list order is kept |
| Manager.SelectedUnfiltered | src/bbusb.hpp:262-269 | with vendor and product both 0 or negative, every entry's id is reported, one per entry, in list order |
| Manager.DescriptorFailureOrReadable | src/bbusb.hpp:255-260 | either every device descriptor can be read or there is a first entry whose read fails |
| Manager.ListError | src/bbusb.hpp:224-232 | an entry `list_devices` cannot turn into a device throws a code other than LIBUSB_SUCCESS taken from one of its three reads; it is the list walk's own descriptor code exactly when that code is negative |
| Manager.ListDevices | src/bbusb.hpp:211-235 | a failed list call throws and frees nothing; otherwise the list is freed exactly once; if every device is built, there is one snapshot per entry in list order, each holding one reference and keeping its configuration descriptor, which is not freed; if not, the first failure's code is thrown, each earlier device makes one ref, one unref and one descriptor free, the failing device keeps a ref exactly when the list walk's own descriptor read did not return a negative code and is neither unreffed nor has a descriptor freed, and no later device is reffed, unreffed or has a descriptor freed |
| Manager.FirstMatchExists | src/lud.cpp:157-175 | when some entry carries the id, there is a first entry that carries it |
| Manager.NoMatchOrFirstMatch | src/lud.cpp:157-159 | either no entry carries the id or a first entry does |
| Manager.PrintEndpoints | src/bbusb.hpp:322-349 | a negative configuration-read code is thrown and nothing is freed; otherwise the descriptor is freed exactly once |
| Manager.Open | src/bbusb.hpp:283-320 | a failed list call throws and frees nothing; with no entry carrying the id the result is null and the list is freed once; otherwise only the first matching entry is opened; a failed `libusb_open` throws its code and creates no session; a failed allocation closes the handle once and rethrows; a failed configuration read in the `noexcept` handle constructor ends the program after the open and frees nothing; else the constructor frees its configuration descriptor once and a new unclaimed session on that entry is returned; the list is freed last on every path that returns |
| Sessions.Opened | src/bbusb.hpp:360-363 | a new session is on the opened device and has nothing claimed |
| Sessions.GetConfiguration | src/bbusb.hpp:376-383 | a negative return code is thrown, otherwise the configuration is returned; the session and the trace are unchanged |
| Sessions.SetConfiguration | src/bbusb.hpp:385-390 | exactly the negative return codes are thrown; the session is unchanged |
| Sessions.IsKernelDriverActive | src/lud.cpp:251-261 | return code 0 gives false and 1 gives true; every other code is thrown, positive ones included |
| Sessions.DetachKernelDriver | src/bbusb.hpp:404-409 | exactly the negative return codes are thrown; the session is unchanged |
| Sessions.ClaimInterface | src/bbusb.hpp:411-417 | exactly one claim attempt; a return code of 0 or more sets the claimed flag; a negative one is thrown and leaves the session unchanged |
| Sessions.ReleaseInterface | src/bbusb.hpp:419-425 | exactly one release attempt; a return code of 0 or more clears the claimed flag; a negative one is thrown and leaves the session unchanged |
| Sessions.Destroy | src/bbusb.hpp:365-374 | one release attempt of interface 0 exactly when the flag is set, with its outcome ignored; then the handle is closed, once and last |
| Sessions.PerformClaimed | src/bbusb.hpp:411-425 | one operation leaves the flag set exactly when it is a successful claim, or when the flag was set and the operation is not a successful release |
| Sessions.DriveClaimed | src/lud.cpp:270-284 | after any series of operations the flag is set exactly when some claim succeeded with no successful release after it, or when the flag was set at the start and no release has succeeded since |
| Sessions.RunUntilThrow | src/lud.cpp:305-321 | a run of session calls in one scope completes exactly when none of them fails, and then leaves the session as the calls one by one would and makes exactly their claim and release attempts |
| Sessions.TraceOnlyAttempts | src/bbusb.hpp:376-425 | of the session calls, only claims and releases appear in the trace: none of them opens, closes or frees anything |
| Sessions.RunUntilThrowFails | src/lud.cpp:305-321 | when a call fails, the run throws the code of the first failing call, and the calls after it are never made |
| TestMode.UnchangedBusFindsDevice | src/lud.cpp:301-305 | when the bus has not changed between the two enumerations, `open` finds an entry carrying the first identifier `find_devices` reported |
| Manager.SelectedHead | src/bbusb.hpp:262-269 | the first identifier `find_devices` reports is that of the first entry the vendor/product filter keeps |
| Manager.FirstMatchIsFirstSelected | src/bbusb.hpp:297-300 | on a list whose bus/address pairs are distinct, the entry `open` picks for the first reported identifier is exactly the first entry the filter keeps |
| TestMode.SessionOpsSucceed | src/lud.cpp:306-321 | when every session step succeeds, they make one claim and one release of interface 0 and leave nothing claimed |
| TestMode.Exercise | src/lud.cpp:306-322 | the session steps complete exactly when the kernel-driver query returns 0 or 1 and no later step fails; a failing query throws its own code with no calls made, and otherwise the first failing step's return code is thrown with the trace ending at that step; a failure leaves only claim and release attempts in the trace, with no close, because no destructor runs; on success the trace is one claim, one release and, from the destructor, one close of the session's device, with no release by the destructor |
| TestMode.RunTestMode | src/lud.cpp:295-323 | no device found exactly when the filtered list is empty, and then the trace is one list free; the call through a null device pointer happens exactly when `open`'s enumeration no longer holds the id found, after two list frees; an exception leaving `main` runs no `scope_exit` and no destructor: a failure in `find_devices` leaves an empty trace, a failed second list call or `libusb_open` leaves only the first list free, a failed allocation leaves that free, the open and `open`'s own close, and a failed configuration read leaves that free and the open; after the open the run completes exactly when the kernel-driver query returns 0 or 1 and no later step fails; a failing query throws its own code, a failing step throws its return code, and the trace after the open ends at that step with only claim and release attempts and no close; on success the trace is a list free, the open, the handle constructor's descriptor free, a list free, one claim, one release and one close of the same device, so the destructor makes no release call |
| Utf8.DecodeEncode | src/bbusb.hpp:149-150 | strict UTF-8 decoding of the transcoder's output gives back the code points |
| Utf8.EncodeDecode | src/bbusb.hpp:150 | every well-formed UTF-8 byte string is the encoding of what it decodes to, so the encoding is injective |
| Utf8.EncodeAscii | src/bbusb.hpp:149 | code points below 0x80 encode to themselves |
| StringDescriptors.Payload | src/bbusb.hpp:133-141 | the payload exists exactly when the probe returned 2 with a non-zero length, the read returned that length, and `buf[0] - 2` is even; it is then the bytes between the header and `buf[0]` |
| StringDescriptors.LittleEndianUnit | src/bbusb.hpp:144 | the code unit is the low byte plus 256 times the high byte |
| StringDescriptors.Units | src/bbusb.hpp:142-146 | there is one code unit per payload byte pair, with unit `i` equal to `payload[2i] + 256 * payload[2i+1]` |
| StringDescriptors.UntilNul | src/bbusb.hpp:148 | the result is the longest prefix without a 0 unit; it stops at the first 0 unit when there is one |
| StringDescriptors.Transcode | src/bbusb.hpp:149-150 | transcoding succeeds exactly when every unit is a Unicode scalar value, and the bytes then decode back to the units; otherwise `std::range_error` is thrown |
| StringDescriptors.StringDescriptor | src/bbusb.hpp:129-156 | when a probe, read or parity check fails the result is the empty string; the only exception is `std::range_error` |
| StringDescriptors.LengthByteOne | src/bbusb.hpp:139-141 | a length byte of 1 gives the odd payload length -1, and the result is the empty string |
| StringDescriptors.TextOfDescriptor | src/bbusb.hpp:142-148 | the text handed to the transcoder is code units `buf[2+2i] + 256 * buf[3+2i]` up to the first 0 unit, or all of them when there is none |
| StringDescriptors.StringDescriptorText | src/bbusb.hpp:138-150 | when the checks pass, the decoder throws exactly when that text holds a surrogate; otherwise its output is well-formed UTF-8 that decodes to exactly that text |
| StringDescriptors.SurrogateInText | src/bbusb.hpp:142-150 | a text of 16-bit units holds a unit that is not a Unicode scalar value exactly when it holds a surrogate |
| StringDescriptors.DescriptorRoundTrip | src/bbusb.hpp:133-155 | a type-3 descriptor built from up to 126 non-zero, non-surrogate units decodes to the UTF-8 encoding of those units |
| StringDescriptors.AsciiDescriptorRoundTrip | src/bbusb.hpp:144-150 | for ASCII text the decoder's output bytes equal the code units |
| StringDescriptors.UsbDeviceExample | src/bbusb.hpp:136-150 | the 22-byte descriptor of "USB Device" decodes to "USB Device" |
| StringDescriptors.StringDescriptorAsWritten | src/bbusb.hpp:129-155 | with signed `char`, when a probe, read or parity check fails the result is still the empty string |
| StringDescriptors.SignedCharUnitValue | src/bbusb.hpp:139 | with signed `char`, a low byte of 0x80 or more gives `0xFFFFFF00 + lo`, a high byte of 0x80 or more gives `0xFFFF0000 + 256 * hi + lo`, and otherwise the value is `256 * hi + lo`; the high-byte case shifts a negative `int`, undefined before C++20, and the value stated is the two's-complement result C++20 defines |
| StringDescriptors.SignedCharUnitAscii | src/bbusb.hpp:139-144 | when both bytes are below 0x80, the signed and unsigned readings agree |
| StringDescriptors.SignedCharUnitOutOfRange | src/bbusb.hpp:144 | with signed `char`, any byte of 0x80 or more makes the unit exceed U+10FFFF |
| StringDescriptors.LatinSmallEAcute | src/bbusb.hpp:139-150 | the descriptor `04 03 E9 00` ("é") makes the signed-`char` decoder throw `std::range_error`, while the unsigned reading gives `C3 A9` |

## Left out

- libusb itself: context set-up and tear-down, listing, descriptor parsing, opening and control transfers. The `usb_manager` constructor and destructor (`libusb_init`/`libusb_exit`) are therefore not modelled.
- `usb_device::print` (src/bbusb.hpp:78-124). Besides printing, it opens a handle with `libusb_open`, throwing a negative code, closes it through a `scope_exit`, and reads the manufacturer, product, serial-number and configuration strings with `string_descriptor`. No member models this sequence of calls; the string decoder it calls is modelled by `StringDescriptors.StringDescriptor`.
- `print_devices` (src/bbusb.hpp:188-209, src/lud.cpp:73-94). Besides printing, it obtains the device list, throwing a negative code, frees the list through a `scope_exit`, and throws the first negative device-descriptor code. It has no model of its own. `main` calls it at src/lud.cpp:293, before the `TEST_MODE` block, and `TestMode.RunTestMode` starts after that call: its calls are not in the trace, and its exception would end the program before the block.
- Formatting only: the `printf` calls of `main` and of `print_endpoints`, and the `MaxPower * 2` milliamp display. The configuration read and free of `print_endpoints` are modelled by `Manager.PrintEndpoints`.
- Manager.Open: when `print_endpoints` throws inside the `noexcept` handle constructor, `std::terminate` is called. Whether the stack is unwound first is implementation-defined; the model takes the GCC and Clang behaviour of not unwinding, so the trace ends with the open and the list is not freed.
- Allocation failures in `list_devices` and `find_devices` (`push_back`, `make_shared`). They are not modelled.
- Surrogate pairs. They are not combined into one code point: each surrogate unit is rejected with `RangeError`. This assumes a 32-bit `wchar_t`.
- StringDescriptors.Transcode: follows libc++'s `codecvt_utf8<wchar_t>`, which rejects surrogates and values above U+10FFFF. libstdc++'s UCS-4 writer is believed to reject only values above U+10FFFF and to encode a lone surrogate as three bytes. With libstdc++, `StringDescriptors.StringDescriptorText`'s "throws exactly when the text holds a surrogate" does not hold; the decoder then never throws for unsigned 16-bit units. The standard library is not part of this model.
- StringDescriptors.StringDescriptor: requires, when both reads succeed, a buffer of the probed length of at least 2 bytes whose length byte is between 1 and that length. A length byte of 0 gives payload length -2, which passes the parity check and sizes the `utf16` array at 0, so the terminator is written before the array. A length byte above the probed length, or a probed length of 1, puts the header pointers past the buffer. All of these are undefined behaviour. The loop's read of one pair past the payload is also undefined, and its value is overwritten by the terminator, so it is not modelled.
- Manager.ListDevices: states how often each destruction call occurs, not their order. The order in which a `std::vector` destroys its elements is not specified.
- TestMode.RunTestMode: an exception escaping `main` calls `std::terminate`, and whether the stack is unwound first is implementation-defined. The model takes the GCC and Clang behaviour of not unwinding. On a thrown outcome the trace ends at the throw, after any handler that catches and rethrows (`open`'s `catch (...)` closes the handle), and no `scope_exit` or destructor runs after it. With unwinding, the list frees of `find_devices` and `open` and the handle's destructor would follow.
- The rest of `main`, hardware identifiers, and concurrency. The code is single-threaded.

## Findings

| source | as written | input that shows it | evidently intended | confidence | as-written member | corrected member |
|---|---|---|---|---|---|---|
| src/bbusb.hpp:139-144 | the payload is read through `char*`, so on a platform with signed `char` each byte is sign-extended before the OR and the `<< 8` | descriptor `04 03 E9 00` (the text "é"): the unit becomes 0xFFFFFFE9 and `to_bytes` throws `std::range_error` | each byte read as `unsigned char`, giving unit 0x00E9 and the output `C3 A9` | not executed; holds wherever `char` is signed | StringDescriptors.StringDescriptorAsWritten (shown by StringDescriptors.LatinSmallEAcute) | StringDescriptors.StringDescriptor (proved by StringDescriptors.StringDescriptorText and StringDescriptors.DescriptorRoundTrip) |

=== FILE: devices.dfy ===
/** The devices of the native device list and the `usb_device` snapshot the
    wrapper builds from one of them (src/bbusb.hpp, `struct usb_device`).

    libusb itself is not modelled: an `Entry` carries the values and return
    codes libusb would hand back for one position of the list.
 */
module Devices {
  import opened Native

  /** An unsigned 16-bit value (`uint16_t`). */
  type u16 = x: int | 0 <= x < 0x1_0000

  /** The standard device descriptor fields the wrapper reads or prints. */
  datatype DeviceDescriptor = DeviceDescriptor(
    bcdUSB: u16,
    deviceClass: byte,
    idVendor: u16,
    idProduct: u16,
    bcdDevice: u16,
    iManufacturer: byte,
    iProduct: byte,
    iSerialNumber: byte,
    numConfigurations: byte)

  /** The header of the first configuration descriptor. */
  datatype ConfigDescriptor = ConfigDescriptor(
    numInterfaces: byte,
    configurationValue: byte,
    iConfiguration: byte,
    attributes: byte,
    maxPower: byte)

  /** One position of the native device list: where the device sits on the
      bus, and what each libusb query about it returns.  The device
      descriptor is read twice on the way to a `usb_device`: once by the
      function walking the list, once more by the constructor; each read has
      its own return code.  Every path reads the first configuration
      descriptor at most once, so one code serves for it. */
  datatype Entry = Entry(
    bus: byte,
    address: byte,
    descriptorRc: int,            // libusb_get_device_descriptor, while walking the list
    ctorDescriptorRc: int,        // libusb_get_device_descriptor, in the constructor
    descriptor: DeviceDescriptor,
    configRc: int,                // libusb_get_config_descriptor(dev, 0, ...)
    config: ConfigDescriptor,
    openRc: int)                  // libusb_open

  /** A constructed `usb_device`: it holds a reference to native device `dev`
      and owns a copy of its first configuration descriptor. */
  datatype Device = Device(
    dev: nat,
    bus: byte,
    address: byte,
    descriptor: DeviceDescriptor,
    config: ConfigDescriptor)

  /** `bus << 8 | address`: the identifier the wrapper hands out for a device. */
  function DeviceId(bus: byte, address: byte): (id: int)
    ensures 0 <= id < 0x1_0000
    ensures id / 0x100 == bus && id % 0x100 == address
  {
    OrShift8Value(address, bus);
    OrShift8(address, bus)
  }

  function EntryId(e: Entry): int
  {
    DeviceId(e.bus, e.address)
  }

  /** `usb_device::id()` */
  function Id(d: Device): int
  {
    DeviceId(d.bus, d.address)
  }

  /** Two devices have the same identifier only if they sit at the same bus
      number and address, so the identifier names at most one device of a
      list in which those pairs are distinct. */
  lemma DeviceIdInjective(bus1: byte, address1: byte, bus2: byte, address2: byte)
    ensures DeviceId(bus1, address1) == DeviceId(bus2, address2)
      <==> bus1 == bus2 && address1 == address2
  {
  }

  /** Every identifier in range is the identifier of exactly one position. */
  lemma DeviceIdOnto(id: int)
    requires 0 <= id < 0x1_0000
    ensures DeviceId(id / 0x100, id % 0x100) == id
  {
    var bus: byte, address: byte := id / 0x100, id % 0x100;
    assert DeviceId(bus, address) / 0x100 == bus && DeviceId(bus, address) % 0x100 == address;
  }

  /** Whether the `usb_device` constructor completes on this entry. */
  predicate Constructible(e: Entry)
  {
    e.ctorDescriptorRc == Success && e.configRc == Success
  }

  /** The code the constructor throws when it does not complete. */
  function ConstructionError(e: Entry): (rc: int)
    requires !Constructible(e)
    ensures rc != Success
    ensures rc == e.ctorDescriptorRc || (e.ctorDescriptorRc == Success && rc == e.configRc)
  {
    if e.ctorDescriptorRc != Success then e.ctorDescriptorRc else e.configRc
  }

  /** `d` is the snapshot of entry `e`, taken at position `dev` of the list. */
  predicate SnapshotOf(d: Device, dev: nat, e: Entry)
  {
    && d.dev == dev
    && d.bus == e.bus
    && d.address == e.address
    && d.descriptor == e.descriptor
    && d.config == e.config
  }

  /** The `usb_device` constructor on native device `dev`: it takes a
      reference first, then reads the device descriptor and the first
      configuration descriptor, throwing the first return code that is not
      LIBUSB_SUCCESS.  A throwing constructor runs no destructor, so the
      reference taken is not given back. */
  function ConstructDevice(dev: nat, e: Entry): (r: Run<Device>)
    ensures r.calls == [RefDevice(dev)]
    ensures r.result.Ok? <==> Constructible(e)
    ensures r.result.Ok? ==> SnapshotOf(r.result.value, dev, e) && Id(r.result.value) == EntryId(e)
    ensures r.result.Thrown? ==>
      && r.result.error == Code(ConstructionError(e))
      && Count(r.calls, UnrefDevice(dev)) == 0
  {
    var calls := [RefDevice(dev)];
    if e.ctorDescriptorRc != Success then Run(Thrown(Code(e.ctorDescriptorRc)), calls)
    else if e.configRc != Success then Run(Thrown(Code(e.configRc)), calls)
    else Run(Ok(Device(dev, e.bus, e.address, e.descriptor, e.config)), calls)
  }

  /** The `usb_device` destructor: frees the configuration descriptor and
      drops the reference. */
  function DestroyDevice(d: Device): (calls: seq<Call>)
    ensures |calls| == 2
    ensures Count(calls, FreeConfigDescriptor(d.dev)) == 1
    ensures Count(calls, UnrefDevice(d.dev)) == 1
  {
    CountPair(FreeConfigDescriptor(d.dev), UnrefDevice(d.dev), FreeConfigDescriptor(d.dev));
    CountPair(FreeConfigDescriptor(d.dev), UnrefDevice(d.dev), UnrefDevice(d.dev));
    [FreeConfigDescriptor(d.dev), UnrefDevice(d.dev)]
  }

  /** A constructed device that is later destroyed leaves the native device's
      reference count where it found it, and frees its descriptor once. */
  lemma ConstructDestroyBalanced(dev: nat, e: Entry)
    requires Constructible(e)
    ensures var r := ConstructDevice(dev, e);
      r.result.Ok? &&
      var calls := r.calls + DestroyDevice(r.result.value);
      && Count(calls, RefDevice(dev)) == 1
      && Count(calls, UnrefDevice(dev)) == 1
      && Count(calls, FreeConfigDescriptor(dev)) == 1
  {
    var r := ConstructDevice(dev, e);
    var destroyed := DestroyDevice(r.result.value);
    CountConcat(r.calls, destroyed, RefDevice(dev));
    CountConcat(r.calls, destroyed, UnrefDevice(dev));
    CountConcat(r.calls, destroyed, FreeConfigDescriptor(dev));
    CountSingle(RefDevice(dev), RefDevice(dev));
    CountSingle(RefDevice(dev), UnrefDevice(dev));
    CountSingle(RefDevice(dev), FreeConfigDescriptor(dev));
    CountPair(FreeConfigDescriptor(dev), UnrefDevice(dev), RefDevice(dev));
  }
}

=== FILE: manager.dfy ===
/** `usb_manager::set_log_level` (src/bbusb.hpp): the wrapper's five
    verbosity levels and the libusb levels they select.  This is a module of
    its own because its enumerators share names with `Native.Option.None`
    and `Native.Error`.
 */
module Logging {

  /** `usb_log_level`, in declaration order. */
  datatype UsbLogLevel = None | Error | Warning | Info | Debug

  /** The enumerators in declaration order, least verbose first. */
  const Levels: seq<UsbLogLevel> := [None, Error, Warning, Info, Debug]

  /** The static lookup table: LIBUSB_LOG_LEVEL_NONE = 0, _ERROR = 1,
      _WARNING = 2, _INFO = 3, _DEBUG = 4. */
  const LevelTable: map<UsbLogLevel, int> :=
    map[None := 0, Error := 1, Warning := 2, Info := 3, Debug := 4]

  /** The libusb level handed to `libusb_set_debug`.  `map.at` never throws:
      the table covers every enumerator. */
  function SetLogLevel(level: UsbLogLevel): (native: int)
    ensures 0 <= native < |Levels|
    ensures Levels[native] == level
  {
    assert level == Levels[0] || level == Levels[1] || level == Levels[2]
      || level == Levels[3] || level == Levels[4];
    LevelTable[level]
  }

  /** Distinct enumerators translate to distinct libusb levels; the silent
      level becomes 0 and the most verbose the highest. */
  lemma SetLogLevelInjective(a: UsbLogLevel, b: UsbLogLevel)
    ensures SetLogLevel(a) == SetLogLevel(b) <==> a == b
    ensures a == None <==> SetLogLevel(a) == 0
    ensures a == Debug <==> SetLogLevel(a) == |Levels| - 1
  {
  }

  /** Every libusb level 0 to 4 is selected by exactly one enumerator. */
  lemma SetLogLevelOnto(native: int)
    requires 0 <= native < |Levels|
    ensures SetLogLevel(Levels[native]) == native
  {
    var level := Levels[native];
    assert Levels[SetLogLevel(level)] == level;
  }
}

/** `usb_manager` (src/bbusb.hpp): enumeration of the native device list.
    Each operation gets the list with `libusb_get_device_list`, throws its
    return code when negative, and otherwise frees the list on every exit
    through `scope_exit`.  `listRc` is that return code and `es` the list. */
module Manager {
  import opened Native
  import opened Devices
  import opened Sessions

  /** `find_devices` keeps a device when each positive filter value equals
      the descriptor's field; zero or a negative value matches anything. */
  predicate Matches(vid: int, pid: int, e: Entry)
  {
    && (vid <= 0 || e.descriptor.idVendor == vid)
    && (pid <= 0 || e.descriptor.idProduct == pid)
  }

  /** The identifiers of the matching entries, in list order. */
  function Selected(vid: int, pid: int, es: seq<Entry>): (ids: seq<int>)
    ensures |ids| <= |es|
  {
    if es == [] then []
    else
      var init := Selected(vid, pid, es[..|es| - 1]);
      var last := es[|es| - 1];
      if Matches(vid, pid, last) then init + [EntryId(last)] else init
  }

  /** Entry `k` is the first whose device descriptor cannot be read. */
  predicate IsFirstDescriptorFailure(es: seq<Entry>, k: int)
  {
    && 0 <= k < |es|
    && es[k].descriptorRc < 0
    && forall j :: 0 <= j < k ==> es[j].descriptorRc >= 0
  }

  predicate DescriptorsReadable(es: seq<Entry>)
  {
    forall i :: 0 <= i < |es| ==> es[i].descriptorRc >= 0
  }

  /** Either every descriptor can be read or a first one cannot. */
  lemma {:induction false} DescriptorFailureOrReadable(es: seq<Entry>)
    ensures DescriptorsReadable(es) || exists k :: IsFirstDescriptorFailure(es, k)
  {
    if es != [] {
      var n := |es| - 1;
      DescriptorFailureOrReadable(es[..n]);
      if DescriptorsReadable(es[..n]) {
        assert forall j :: 0 <= j < n ==> es[..n][j] == es[j];
        if !DescriptorsReadable(es) {
          assert IsFirstDescriptorFailure(es, n);
        }
      } else {
        var k :| IsFirstDescriptorFailure(es[..n], k);
        assert IsFirstDescriptorFailure(es, k);
      }
    }
  }

  /** `find_devices(vid, pid)`: the identifiers of the matching devices in
      list order, or the first negative descriptor return code; the list is
      freed exactly once unless getting it failed. */
  method FindDevices(vid: int, pid: int, listRc: int, es: seq<Entry>)
    returns (r: Result<seq<int>>, calls: seq<Call>)
    ensures listRc < 0 ==> r == Thrown(Code(listRc)) && calls == []
    ensures listRc >= 0 ==> calls == [FreeDeviceList]
    ensures listRc >= 0 && DescriptorsReadable(es) ==> r == Ok(Selected(vid, pid, es))
    ensures listRc >= 0 ==> forall k | IsFirstDescriptorFailure(es, k) ::
      r == Thrown(Code(es[k].descriptorRc))
  {
    if listRc < 0 {
      return Thrown(Code(listRc)), [];
    }
    var ids: seq<int> := [];
    var i := 0;
    while i < |es|
      invariant 0 <= i <= |es|
      invariant forall j :: 0 <= j < i ==> es[j].descriptorRc >= 0
      invariant ids == Selected(vid, pid, es[..i])
    {
      if es[i].descriptorRc < 0 {
        var exit := ScopeExit(Run(Thrown(Code(es[i].descriptorRc)), []), FreeDeviceList);
        return exit.result, exit.calls;
      }
      assert es[..i + 1][..i] == es[..i];
      if Matches(vid, pid, es[i]) {
        ids := ids + [EntryId(es[i])];
      }
      i := i + 1;
    }
    assert es[..i] == es;
    var exit := ScopeExit(Run(Ok(ids), []), FreeDeviceList);
    r, calls := exit.result, exit.calls;
  }

  /** An identifier is found exactly when some matching entry carries it. */
  lemma {:induction false} SelectedMembers(vid: int, pid: int, es: seq<Entry>, id: int)
    ensures id in Selected(vid, pid, es) <==>
      exists i :: 0 <= i < |es| && Matches(vid, pid, es[i]) && EntryId(es[i]) == id
  {
    if es != [] {
      var n := |es| - 1;
      var init := es[..n];
      SelectedMembers(vid, pid, init, id);
      assert forall i :: 0 <= i < n ==> init[i] == es[i];
      if exists i :: 0 <= i < |es| && Matches(vid, pid, es[i]) && EntryId(es[i]) == id {
        var i :| 0 <= i < |es| && Matches(vid, pid, es[i]) && EntryId(es[i]) == id;
        if i < n {
          assert init[i] == es[i];
        }
      }
    }
  }

  /** Filtering distributes over the list: the ids of one part of the list
      precede those of the next, so list order is kept. */
  lemma {:induction false} SelectedAppend(vid: int, pid: int, a: seq<Entry>, b: seq<Entry>)
    ensures Selected(vid, pid, a + b) == Selected(vid, pid, a) + Selected(vid, pid, b)
    decreases |b|
  {
    if b != [] {
      var n := |b| - 1;
      assert (a + b)[..|a + b| - 1] == a + b[..n];
      SelectedAppend(vid, pid, a, b[..n]);
    } else {
      assert a + b == a;
    }
  }

  /** Without filters every device is reported, in list order. */
  lemma {:induction false} SelectedUnfiltered(vid: int, pid: int, es: seq<Entry>)
    requires vid <= 0 && pid <= 0
    ensures |Selected(vid, pid, es)| == |es|
    ensures forall i :: 0 <= i < |es| ==> Selected(vid, pid, es)[i] == EntryId(es[i])
  {
    if es != [] {
      var n := |es| - 1;
      SelectedUnfiltered(vid, pid, es[..n]);
    }
  }

  /** The ids of the positions `0 .. n - 1`, each referenced once. */
  function RefsUpTo(n: nat): (calls: seq<Call>)
    ensures |calls| == n
  {
    if n == 0 then [] else RefsUpTo(n - 1) + [RefDevice(n - 1)]
  }

  lemma {:induction false} CountRefsUpTo(n: nat, c: Call)
    ensures Count(RefsUpTo(n), c) == if c.RefDevice? && c.dev < n then 1 else 0
  {
    if n > 0 {
      CountRefsUpTo(n - 1, c);
      CountConcat(RefsUpTo(n - 1), [RefDevice(n - 1)], c);
    }
  }

  /** Destroys the devices of a vector: their order is unspecified in C++,
      so only how often each call occurs is stated about it. */
  function DestroyAll(ds: seq<Device>): (calls: seq<Call>)
    ensures |calls| == 2 * |ds|
  {
    if ds == [] then [] else DestroyAll(ds[..|ds| - 1]) + DestroyDevice(ds[|ds| - 1])
  }

  lemma {:induction false} CountDestroyAll(ds: seq<Device>, c: Call)
    requires forall j :: 0 <= j < |ds| ==> ds[j].dev == j
    ensures Count(DestroyAll(ds), c) == if Destroys(c) && c.dev < |ds| then 1 else 0
  {
    if ds != [] {
      var n := |ds| - 1;
      var init := ds[..n];
      assert forall j :: 0 <= j < n ==> init[j] == ds[j];
      CountDestroyAll(init, c);
      assert DestroyAll(ds) == DestroyAll(init) + DestroyDevice(ds[n]);
      CountConcat(DestroyAll(init), DestroyDevice(ds[n]), c);
      CountDestroyDevice(ds[n], c);
      assert ds[n].dev == n;
    }
  }

  /** The calls a device's destruction makes. */
  predicate Destroys(c: Call)
  {
    c.UnrefDevice? || c.FreeConfigDescriptor?
  }

  lemma CountDestroyDevice(d: Device, c: Call)
    ensures Count(DestroyDevice(d), c) == if Destroys(c) && c.dev == d.dev then 1 else 0
  {
    CountPair(FreeConfigDescriptor(d.dev), UnrefDevice(d.dev), c);
  }

  /** Whether `list_devices` turns this entry into a device: its own
      descriptor read is not negative and the constructor completes. */
  predicate Listable(e: Entry)
  {
    e.descriptorRc >= 0 && Constructible(e)
  }

  /** The code `list_devices` throws for an entry it cannot turn into a
      device: its own read's, when that is negative, else the constructor's. */
  function ListError(e: Entry): (rc: int)
    requires !Listable(e)
    ensures rc != Success
    ensures rc == e.descriptorRc || rc == e.ctorDescriptorRc || rc == e.configRc
    ensures e.descriptorRc < 0 <==> rc == e.descriptorRc && rc < 0
  {
    if e.descriptorRc < 0 then e.descriptorRc else ConstructionError(e)
  }

  /** Entry `k` is the first that `list_devices` cannot turn into a device. */
  predicate IsFirstFailure(es: seq<Entry>, k: int)
  {
    && 0 <= k < |es|
    && !Listable(es[k])
    && forall j :: 0 <= j < k ==> Listable(es[j])
  }

  /** `list_devices()`: one `usb_device` per entry, in list order, each
      holding one reference.  If a device cannot be built, the first error
      escapes, the list is freed, and the devices built so far are destroyed,
      which balances their references; the failing device keeps the
      reference its constructor took when its descriptor read did not fail
      with a negative code the first time. */
  method ListDevices(listRc: int, es: seq<Entry>) returns (r: Result<seq<Device>>, calls: seq<Call>)
    ensures listRc < 0 ==> r == Thrown(Code(listRc)) && calls == []
    ensures listRc >= 0 ==> Count(calls, FreeDeviceList) == 1
    ensures listRc >= 0 && (forall i :: 0 <= i < |es| ==> Listable(es[i])) ==>
      && r.Ok? && |r.value| == |es|
      && (forall i :: 0 <= i < |es| ==> SnapshotOf(r.value[i], i, es[i]))
      && (forall i: nat :: i < |es| ==>
            && Count(calls, RefDevice(i)) == 1
            && Count(calls, UnrefDevice(i)) == 0
            && Count(calls, FreeConfigDescriptor(i)) == 0)
    ensures listRc >= 0 ==> forall k | IsFirstFailure(es, k) ::
      && r == Thrown(Code(ListError(es[k])))
      && (forall j: nat :: j < k ==>
            && Count(calls, RefDevice(j)) == 1
            && Count(calls, UnrefDevice(j)) == 1
            && Count(calls, FreeConfigDescriptor(j)) == 1)
      && Count(calls, RefDevice(k)) == (if es[k].descriptorRc < 0 then 0 else 1)
      && Count(calls, UnrefDevice(k)) == 0
      && Count(calls, FreeConfigDescriptor(k)) == 0
      && (forall j: nat :: k < j ==>
            && Count(calls, RefDevice(j)) == 0
            && Count(calls, UnrefDevice(j)) == 0
            && Count(calls, FreeConfigDescriptor(j)) == 0)
  {
    if listRc < 0 {
      return Thrown(Code(listRc)), [];
    }
    var devices: seq<Device> := [];
    var made: seq<Call> := [];
    var failure: Option<Error> := None;
    var i := 0;
    while i < |es| && failure.None?
      invariant 0 <= i <= |es|
      invariant |devices| == i
      invariant forall j :: 0 <= j < i ==> Listable(es[j]) && SnapshotOf(devices[j], j, es[j])
      invariant failure.None? ==> made == RefsUpTo(i)
      invariant failure.Some? ==>
        && i < |es| && !Listable(es[i])
        && failure.value == Code(ListError(es[i]))
        && made == RefsUpTo(i) + (if es[i].descriptorRc < 0 then [] else [RefDevice(i)])
      decreases |es| - i, if failure.None? then 1 else 0
    {
      if es[i].descriptorRc < 0 {
        failure := Some(Code(es[i].descriptorRc));
      } else {
        var built := ConstructDevice(i, es[i]);
        made := made + built.calls;
        match built.result
        case Thrown(e) =>
          failure := Some(e);
        case Ok(d) =>
          devices := devices + [d];
          i := i + 1;
      }
    }
    if failure.Some? {
      var exit := ScopeExit(Run(Thrown(failure.value), made), FreeDeviceList);
      r := exit.result;
      calls := exit.calls + DestroyAll(devices);
      FailedCounts(devices, i, es[i].descriptorRc >= 0, calls);
      forall k | IsFirstFailure(es, k) ensures k == i {
      }
    } else {
      var exit := ScopeExit(Run(Ok(devices), made), FreeDeviceList);
      r, calls := exit.result, exit.calls;
      BuiltAllCounts(i, calls);
    }
  }

  /** The trace of a `list_devices` that built every device. */
  lemma BuiltAllCounts(n: nat, calls: seq<Call>)
    requires calls == RefsUpTo(n) + [FreeDeviceList]
    ensures Count(calls, FreeDeviceList) == 1
    ensures forall j: nat :: j < n ==>
      && Count(calls, RefDevice(j)) == 1
      && Count(calls, UnrefDevice(j)) == 0
      && Count(calls, FreeConfigDescriptor(j)) == 0
  {
    forall c: Call
      ensures Count(calls, c) == (if c.RefDevice? && c.dev < n then 1 else 0) + (if c == FreeDeviceList then 1 else 0)
    {
      CountConcat(RefsUpTo(n), [FreeDeviceList], c);
      CountRefsUpTo(n, c);
    }
  }

  /** The trace of a `list_devices` whose device `k` could not be built:
      references for `0 .. k - 1` and possibly `k`, the freed list, then the
      destruction of the devices built. */
  lemma FailedCounts(devices: seq<Device>, k: nat, reffed: bool, calls: seq<Call>)
    requires |devices| == k && forall j :: 0 <= j < k ==> devices[j].dev == j
    requires calls == RefsUpTo(k) + (if reffed then [RefDevice(k)] else []) + [FreeDeviceList] + DestroyAll(devices)
    ensures Count(calls, FreeDeviceList) == 1
    ensures forall j: nat :: j < k ==>
      && Count(calls, RefDevice(j)) == 1
      && Count(calls, UnrefDevice(j)) == 1
      && Count(calls, FreeConfigDescriptor(j)) == 1
    ensures Count(calls, RefDevice(k)) == (if reffed then 1 else 0)
    ensures Count(calls, UnrefDevice(k)) == 0
    ensures Count(calls, FreeConfigDescriptor(k)) == 0
    ensures forall j: nat :: k < j ==>
      && Count(calls, RefDevice(j)) == 0
      && Count(calls, UnrefDevice(j)) == 0
      && Count(calls, FreeConfigDescriptor(j)) == 0
  {
    FailedCount(devices, k, reffed, calls, FreeDeviceList);
    FailedCount(devices, k, reffed, calls, RefDevice(k));
    FailedCount(devices, k, reffed, calls, UnrefDevice(k));
    FailedCount(devices, k, reffed, calls, FreeConfigDescriptor(k));
    FailedBuiltCounts(devices, k, reffed, calls);
    FailedLaterCounts(devices, k, reffed, calls);
  }

  lemma FailedLaterCounts(devices: seq<Device>, k: nat, reffed: bool, calls: seq<Call>)
    requires |devices| == k && forall j :: 0 <= j < k ==> devices[j].dev == j
    requires calls == RefsUpTo(k) + (if reffed then [RefDevice(k)] else []) + [FreeDeviceList] + DestroyAll(devices)
    ensures forall j: nat :: k < j ==>
      && Count(calls, RefDevice(j)) == 0
      && Count(calls, UnrefDevice(j)) == 0
      && Count(calls, FreeConfigDescriptor(j)) == 0
  {
    forall j: nat | k < j
      ensures && Count(calls, RefDevice(j)) == 0
              && Count(calls, UnrefDevice(j)) == 0
              && Count(calls, FreeConfigDescriptor(j)) == 0
    {
      FailedCount(devices, k, reffed, calls, RefDevice(j));
      FailedCount(devices, k, reffed, calls, UnrefDevice(j));
      FailedCount(devices, k, reffed, calls, FreeConfigDescriptor(j));
    }
  }

  lemma FailedBuiltCounts(devices: seq<Device>, k: nat, reffed: bool, calls: seq<Call>)
    requires |devices| == k && forall j :: 0 <= j < k ==> devices[j].dev == j
    requires calls == RefsUpTo(k) + (if reffed then [RefDevice(k)] else []) + [FreeDeviceList] + DestroyAll(devices)
    ensures forall j: nat :: j < k ==>
      && Count(calls, RefDevice(j)) == 1
      && Count(calls, UnrefDevice(j)) == 1
      && Count(calls, FreeConfigDescriptor(j)) == 1
  {
    forall j: nat | j < k
      ensures && Count(calls, RefDevice(j)) == 1
              && Count(calls, UnrefDevice(j)) == 1
              && Count(calls, FreeConfigDescriptor(j)) == 1
    {
      FailedCount(devices, k, reffed, calls, RefDevice(j));
      FailedCount(devices, k, reffed, calls, UnrefDevice(j));
      FailedCount(devices, k, reffed, calls, FreeConfigDescriptor(j));
    }
  }

  lemma FailedCount(devices: seq<Device>, k: nat, reffed: bool, calls: seq<Call>, c: Call)
    requires |devices| == k && forall j :: 0 <= j < k ==> devices[j].dev == j
    requires calls == RefsUpTo(k) + (if reffed then [RefDevice(k)] else []) + [FreeDeviceList] + DestroyAll(devices)
    ensures Count(calls, c) ==
        (if c.RefDevice? && c.dev < k then 1 else 0)
        + (if reffed && c == RefDevice(k) then 1 else 0)
        + (if c == FreeDeviceList then 1 else 0)
        + (if Destroys(c) && c.dev < k then 1 else 0)
  {
    var extra: seq<Call> := if reffed then [RefDevice(k)] else [];
    CountConcat(RefsUpTo(k) + extra + [FreeDeviceList], DestroyAll(devices), c);
    CountConcat(RefsUpTo(k) + extra, [FreeDeviceList], c);
    CountConcat(RefsUpTo(k), extra, c);
    CountRefsUpTo(k, c);
    CountDestroyAll(devices, c);
  }

  /** Entry `k` is the first whose identifier is `id`. */
  predicate IsFirstMatch(es: seq<Entry>, id: int, k: int)
  {
    && 0 <= k < |es|
    && EntryId(es[k]) == id
    && forall j :: 0 <= j < k ==> EntryId(es[j]) != id
  }

  /** Whenever some entry carries `id`, a first one does. */
  lemma {:induction false} FirstMatchExists(es: seq<Entry>, id: int, i: int)
    requires 0 <= i < |es| && EntryId(es[i]) == id
    ensures exists k :: IsFirstMatch(es, id, k)
    decreases i
  {
    if exists j :: 0 <= j < i && EntryId(es[j]) == id {
      var j :| 0 <= j < i && EntryId(es[j]) == id;
      FirstMatchExists(es, id, j);
    } else {
      assert IsFirstMatch(es, id, i);
    }
  }

  /** Either no entry carries `id` or a first one does. */
  lemma NoMatchOrFirstMatch(es: seq<Entry>, id: int)
    ensures (forall j :: 0 <= j < |es| ==> EntryId(es[j]) != id) || exists k :: IsFirstMatch(es, id, k)
  {
    if exists j :: 0 <= j < |es| && EntryId(es[j]) == id {
      var j :| 0 <= j < |es| && EntryId(es[j]) == id;
      FirstMatchExists(es, id, j);
    }
  }

  /** Entry `m` is the first that the vendor/product filter keeps. */
  predicate IsFirstSelected(vid: int, pid: int, es: seq<Entry>, m: int)
  {
    && 0 <= m < |es|
    && Matches(vid, pid, es[m])
    && forall j :: 0 <= j < m ==> !Matches(vid, pid, es[j])
  }

  /** Whenever the filter keeps some entry, it keeps a first one. */
  lemma {:induction false} FirstSelectedExists(vid: int, pid: int, es: seq<Entry>, i: int)
    requires 0 <= i < |es| && Matches(vid, pid, es[i])
    ensures exists m :: IsFirstSelected(vid, pid, es, m)
    decreases i
  {
    if exists j :: 0 <= j < i && Matches(vid, pid, es[j]) {
      var j :| 0 <= j < i && Matches(vid, pid, es[j]);
      FirstSelectedExists(vid, pid, es, j);
    } else {
      assert IsFirstSelected(vid, pid, es, i);
    }
  }

  /** The first identifier reported is that of the first entry the filter
      keeps. */
  lemma {:induction false} SelectedHead(vid: int, pid: int, es: seq<Entry>, m: int)
    requires IsFirstSelected(vid, pid, es, m)
    ensures Selected(vid, pid, es) != [] && Selected(vid, pid, es)[0] == EntryId(es[m])
  {
    var before, rest := es[..m], es[m + 1..];
    assert es == before + ([es[m]] + rest);
    SelectedAppend(vid, pid, before, [es[m]] + rest);
    SelectedAppend(vid, pid, [es[m]], rest);
    assert [es[m]][..0] == [];
    if Selected(vid, pid, before) != [] {
      SelectedMembers(vid, pid, before, Selected(vid, pid, before)[0]);
    }
  }

  /** On a list whose devices have distinct bus/address pairs (as libusb's
      list has), the entry `open` picks for the first identifier
      `find_devices` reported is exactly the first entry the filter keeps. */
  lemma FirstMatchIsFirstSelected(vid: int, pid: int, es: seq<Entry>)
    requires forall i, j :: 0 <= i < j < |es| ==> EntryId(es[i]) != EntryId(es[j])
    requires Selected(vid, pid, es) != []
    ensures forall k :: IsFirstMatch(es, Selected(vid, pid, es)[0], k) <==> IsFirstSelected(vid, pid, es, k)
  {
    var id := Selected(vid, pid, es)[0];
    SelectedMembers(vid, pid, es, id);
    var i :| 0 <= i < |es| && Matches(vid, pid, es[i]) && EntryId(es[i]) == id;
    FirstSelectedExists(vid, pid, es, i);
    var m :| IsFirstSelected(vid, pid, es, m);
    SelectedHead(vid, pid, es, m);
    forall k ensures IsFirstMatch(es, id, k) <==> k == m {
    }
    forall k ensures IsFirstSelected(vid, pid, es, k) <==> k == m {
    }
  }

  /** `print_endpoints(device)`: reads the first configuration descriptor
      of the device, throwing a negative return code, and frees it after
      printing. */
  function PrintEndpoints(dev: nat, e: Entry): (r: Run<()>)
    ensures r.result.Ok? <==> e.configRc >= 0
    ensures r.result.Ok? ==> r.calls == [FreeConfigDescriptor(dev)]
    ensures r.result.Thrown? ==> r.result.error == Code(e.configRc) && r.calls == []
  {
    if e.configRc < 0 then Run(Thrown(Code(e.configRc)), [])
    else Run(Ok(()), [FreeConfigDescriptor(dev)])
  }

  /** `open(device_id)`: opens the first device whose identifier is
      `device_id` and stops looking.  No such device gives a null pointer; a
      failed `libusb_open` throws its code.  `make_shared` then allocates the
      handle object; when that fails (`allocationFails`), the opened handle is
      closed and the `std::bad_alloc` rethrown.  The handle's constructor is
      `noexcept` and calls `print_endpoints`, so a failed configuration read
      there ends the program through `std::terminate`, with no unwinding
      (what GCC and Clang do): the list is not freed on that path.  On every
      other exit after the list was obtained, it is freed last. */
  method Open(deviceId: int, listRc: int, es: seq<Entry>, allocationFails: bool)
    returns (r: Result<Option<Session>>, calls: seq<Call>)
    ensures listRc < 0 ==> r == Thrown(Code(listRc)) && calls == []
    ensures listRc >= 0 && (forall j :: 0 <= j < |es| ==> EntryId(es[j]) != deviceId) ==>
      r == Ok(None) && calls == [FreeDeviceList]
    ensures listRc >= 0 ==> forall k | IsFirstMatch(es, deviceId, k) ::
      if es[k].openRc < 0 then
        r == Thrown(Code(es[k].openRc)) && calls == [FreeDeviceList]
      else if allocationFails then
        r == Thrown(BadAlloc) && calls == [OpenHandle(k), CloseHandle(k), FreeDeviceList]
      else if es[k].configRc < 0 then
        r == Thrown(Terminated) && calls == [OpenHandle(k)]
      else
        r == Ok(Some(Opened(k))) && calls == [OpenHandle(k), FreeConfigDescriptor(k), FreeDeviceList]
  {
    if listRc < 0 {
      return Thrown(Code(listRc)), [];
    }
    var i := 0;
    while i < |es| && EntryId(es[i]) != deviceId
      invariant 0 <= i <= |es|
      invariant forall j :: 0 <= j < i ==> EntryId(es[j]) != deviceId
    {
      i := i + 1;
    }
    var body: Run<Option<Session>>;
    if i == |es| {
      body := Run(Ok(None), []);
    } else {
      assert IsFirstMatch(es, deviceId, i);
      forall k | IsFirstMatch(es, deviceId, k) ensures k == i {
      }
      if es[i].openRc < 0 {
        var exit := ScopeExit(Run(Thrown(Code(es[i].openRc)), []), FreeDeviceList);
        return exit.result, exit.calls;
      }
      if allocationFails {
        body := Run(Thrown(BadAlloc), [OpenHandle(i), CloseHandle(i)]);
      } else {
        var endpoints := PrintEndpoints(i, es[i]);
        if endpoints.result.Thrown? {
          return Thrown(Terminated), [OpenHandle(i)] + endpoints.calls;
        }
        body := Run(Ok(Some(Opened(i))), [OpenHandle(i)] + endpoints.calls);
      }
    }
    var exit := ScopeExit(body, FreeDeviceList);
    r, calls := exit.result, exit.calls;
  }
}

=== FILE: native.dfy ===
/** What the wrapper sees of libusb: bytes, result codes, thrown errors,
    and the native calls that acquire or release a resource.

    The C++ code signals failure by throwing the raw libusb return code
    (`throw rc`), by letting a standard-library exception escape
    (`std::range_error` from the UTF-8 transcoder, an allocation failure from
    `std::make_shared`), or by returning an empty string / null pointer.
    Here every exceptional exit is a `Thrown` value, and the native calls
    listed in `Call` are recorded in a trace that the operation returns
    alongside its result.  Obtaining the device list and reading a
    configuration descriptor are not recorded: their results are inputs,
    and only the matching release calls appear in the trace.
 */
module Native {

  /** An unsigned 8-bit value (`uint8_t` / `unsigned char`). */
  type byte = x: int | 0 <= x < 0x100

  const Success := 0  // LIBUSB_SUCCESS

  datatype Option<+T> = None | Some(value: T)

  /** What a C++ `throw` in the wrapper carries. */
  datatype Error =
    | Code(rc: int)        // `throw rc;` with a (negative, or non-success) libusb return code
    | RangeError           // `std::range_error` thrown by `wstring_convert::to_bytes`
    | BadAlloc             // an allocation failure, e.g. inside `std::make_shared`
    | NullDereference      // a call through a null `shared_ptr` (undefined behaviour in C++)
    | Terminated           // an exception leaving a `noexcept` function: `std::terminate`

  datatype Result<+T> = Ok(value: T) | Thrown(error: Error)

  /** Native calls that acquire or release a resource.  `dev` is the position
      of the device in the native device list of the enumeration that produced it. */
  datatype Call =
    | FreeDeviceList                 // libusb_free_device_list(devs, 1)
    | RefDevice(dev: nat)            // libusb_ref_device
    | UnrefDevice(dev: nat)          // libusb_unref_device
    | FreeConfigDescriptor(dev: nat) // libusb_free_config_descriptor
    | OpenHandle(dev: nat)           // a successful libusb_open
    | CloseHandle(dev: nat)          // libusb_close
    | ClaimAttempt(iface: int)       // a libusb_claim_interface call
    | ReleaseAttempt(iface: int)     // a libusb_release_interface call

  /** An operation's outcome together with the native calls it made, in order. */
  datatype Run<+T> = Run(result: Result<T>, calls: seq<Call>)

  /** `low | (high << 8)` on two unsigned bytes promoted to `int`, as the
      source combines the bus number with the device address and the two
      bytes of a UTF-16LE code unit. */
  function OrShift8(low: byte, high: byte): int
  {
    (((low as bv8) as bv32) | (((high as bv8) as bv32) << 8)) as int
  }

  /** The bit operations of `OrShift8` amount to `low + 256 * high`. */
  lemma OrShift8Value(low: byte, high: byte)
    ensures OrShift8(low, high) == low as int + 0x100 * (high as int)
  {
    ByteBits(low);
    ByteBits(high);
    OrShift8Bits(low as bv8, high as bv8);
  }

  lemma ByteBits(b: byte)
    ensures (b as bv8) as int == b
    ensures b < 0x80 <==> (b as bv8) < 0x80
  {
  }

  lemma OrShift8Bits(l: bv8, h: bv8)
    ensures ((l as bv32) | ((h as bv32) << 8)) as int == l as int + 0x100 * (h as int)
  {
  }

  /** How many times `c` occurs in `calls`. */
  function Count(calls: seq<Call>, c: Call): nat
  {
    if calls == [] then 0
    else Count(calls[..|calls| - 1], c) + (if calls[|calls| - 1] == c then 1 else 0)
  }

  /** Counting distributes over concatenation. */
  lemma {:induction false} CountConcat(a: seq<Call>, b: seq<Call>, c: Call)
    ensures Count(a + b, c) == Count(a, c) + Count(b, c)
    decreases |b|
  {
    if b == [] {
      assert a + b == a;
    } else {
      var n := |b| - 1;
      assert (a + b)[..|a + b| - 1] == a + b[..n];
      CountConcat(a, b[..n], c);
    }
  }

  /** A call occurs in a one-call trace once if it is that call, else not at all. */
  lemma CountSingle(d: Call, c: Call)
    ensures Count([d], c) == if d == c then 1 else 0
  {
    assert [d][..0] == [];
  }

  lemma CountPair(a: Call, b: Call, c: Call)
    ensures Count([a, b], c) == (if a == c then 1 else 0) + (if b == c then 1 else 0)
  {
    assert [a, b] == [a] + [b];
    CountConcat([a], [b], c);
    CountSingle(a, c);
    CountSingle(b, c);
  }

  /** `scope_exit`: the deferred action runs exactly once when the scope is
      left, whether the body returned normally or threw, and it does not
      change what the body produced. */
  function ScopeExit<T>(body: Run<T>, deferred: Call): (r: Run<T>)
    ensures r.result == body.result
    ensures r.calls == body.calls + [deferred]
    ensures |r.calls| == |body.calls| + 1 && r.calls[..|body.calls|] == body.calls
    ensures r.calls[|body.calls|] == deferred
    ensures Count(r.calls, deferred) == Count(body.calls, deferred) + 1
    ensures forall c :: c != deferred ==> Count(r.calls, c) == Count(body.calls, c)
  {
    var calls := body.calls + [deferred];
    assert calls[..|body.calls|] == body.calls;
    Run(body.result, calls)
  }
}

=== FILE: sessions.dfy ===
/** An opened device (src/bbusb.hpp, `class usb_device_handle`): the native
    handle plus the one flag the class keeps, whether an interface is
    claimed.  Every operation passes a libusb return code straight through
    as a thrown error; claiming and releasing move the flag only when the
    native call succeeded, and the destructor gives the interface and the
    handle back.
 */
module Sessions {
  import opened Native

  /** `dev` is the native device the handle was opened on. */
  datatype Session = Session(dev: nat, claimed: bool)

  /** An operation's outcome, the session afterwards, and the native
      resource calls it made. */
  datatype Step<+T> = Step(result: Result<T>, session: Session, calls: seq<Call>)

  /** The constructor: nothing is claimed yet. */
  function Opened(dev: nat): (s: Session)
    ensures s.dev == dev && !s.claimed
  {
    Session(dev, false)
  }

  /** `get_configuration`: a negative return code is thrown, otherwise the
      configuration libusb reported is returned. */
  function GetConfiguration(s: Session, rc: int, configuration: int): (st: Step<int>)
    ensures st.session == s && st.calls == []
    ensures st.result.Ok? <==> rc >= 0
    ensures st.result.Ok? ==> st.result.value == configuration
    ensures st.result.Thrown? ==> st.result.error == Code(rc)
  {
    if rc < 0 then Step(Thrown(Code(rc)), s, []) else Step(Ok(configuration), s, [])
  }

  /** `set_configuration` */
  function SetConfiguration(s: Session, configuration: int, rc: int): (st: Step<()>)
    ensures st.session == s && st.calls == []
    ensures st.result.Ok? <==> rc >= 0
    ensures st.result.Thrown? ==> st.result.error == Code(rc)
  {
    if rc < 0 then Step(Thrown(Code(rc)), s, []) else Step(Ok(()), s, [])
  }

  /** `is_kernel_driver_active`: 0 means no, 1 means yes, and any other
      return code, positive ones included, is thrown. */
  function IsKernelDriverActive(s: Session, rc: int): (st: Step<bool>)
    ensures st.session == s && st.calls == []
    ensures st.result.Ok? <==> rc == 0 || rc == 1
    ensures st.result.Ok? ==> (st.result.value <==> rc == 1)
    ensures st.result.Thrown? ==> st.result.error == Code(rc)
  {
    if rc == 0 then Step(Ok(false), s, [])
    else if rc == 1 then Step(Ok(true), s, [])
    else Step(Thrown(Code(rc)), s, [])
  }

  /** `detach_kernel_driver` */
  function DetachKernelDriver(s: Session, rc: int): (st: Step<()>)
    ensures st.session == s && st.calls == []
    ensures st.result.Ok? <==> rc >= 0
    ensures st.result.Thrown? ==> st.result.error == Code(rc)
  {
    if rc < 0 then Step(Thrown(Code(rc)), s, []) else Step(Ok(()), s, [])
  }

  /** `claim_interface`: the flag is set only after the native claim succeeded;
      a failed claim leaves the session as it was. */
  function ClaimInterface(s: Session, iface: int, rc: int): (st: Step<()>)
    ensures st.calls == [ClaimAttempt(iface)]
    ensures st.session.dev == s.dev
    ensures st.result.Ok? <==> rc >= 0
    ensures st.result.Ok? ==> st.session.claimed
    ensures st.result.Thrown? ==> st.result.error == Code(rc) && st.session == s
  {
    if rc < 0 then Step(Thrown(Code(rc)), s, [ClaimAttempt(iface)])
    else Step(Ok(()), s.(claimed := true), [ClaimAttempt(iface)])
  }

  /** `release_interface`: the flag is cleared only after the native release
      succeeded. */
  function ReleaseInterface(s: Session, iface: int, rc: int): (st: Step<()>)
    ensures st.calls == [ReleaseAttempt(iface)]
    ensures st.session.dev == s.dev
    ensures st.result.Ok? <==> rc >= 0
    ensures st.result.Ok? ==> !st.session.claimed
    ensures st.result.Thrown? ==> st.result.error == Code(rc) && st.session == s
  {
    if rc < 0 then Step(Thrown(Code(rc)), s, [ReleaseAttempt(iface)])
    else Step(Ok(()), s.(claimed := false), [ReleaseAttempt(iface)])
  }

  /** The destructor: when the flag is set it attempts to release interface 0
      and swallows whatever that throws; then it closes the handle, exactly
      once and last, whether or not the release succeeded. */
  function Destroy(s: Session, releaseRc: int): (calls: seq<Call>)
    ensures |calls| == (if s.claimed then 2 else 1)
    ensures calls[|calls| - 1] == CloseHandle(s.dev)
    ensures Count(calls, CloseHandle(s.dev)) == 1
    ensures Count(calls, ReleaseAttempt(0)) == (if s.claimed then 1 else 0)
  {
    var release := if s.claimed then ReleaseInterface(s, 0, releaseRc).calls else [];
    CountConcat(release, [CloseHandle(s.dev)], CloseHandle(s.dev));
    CountConcat(release, [CloseHandle(s.dev)], ReleaseAttempt(0));
    CountSingle(CloseHandle(s.dev), CloseHandle(s.dev));
    CountSingle(CloseHandle(s.dev), ReleaseAttempt(0));
    CountSingle(ReleaseAttempt(0), CloseHandle(s.dev));
    CountSingle(ReleaseAttempt(0), ReleaseAttempt(0));
    release + [CloseHandle(s.dev)]
  }

  /** The operations a caller can invoke on a session, each with the return
      code its native call produces. */
  datatype Op =
    | GetConfigurationOp(rc: int, configuration: int)
    | SetConfigurationOp(configuration: int, rc: int)
    | KernelDriverActiveOp(rc: int)
    | DetachKernelDriverOp(rc: int)
    | ClaimOp(iface: int, rc: int)
    | ReleaseOp(iface: int, rc: int)

  /** The resource calls an operation makes: only claiming and releasing
      are recorded. */
  function OpCalls(op: Op): seq<Call>
  {
    match op
    case ClaimOp(iface, _) => [ClaimAttempt(iface)]
    case ReleaseOp(iface, _) => [ReleaseAttempt(iface)]
    case _ => []
  }

  /** The calls of a series of operations, in order. */
  function Trace(ops: seq<Op>): seq<Call>
  {
    if ops == [] then [] else Trace(ops[..|ops| - 1]) + OpCalls(ops[|ops| - 1])
  }

  /** Every call is an attempt to claim or release an interface. */
  predicate OnlyAttempts(calls: seq<Call>)
  {
    forall j :: 0 <= j < |calls| ==> calls[j].ClaimAttempt? || calls[j].ReleaseAttempt?
  }

  /** The only native calls operations make are claim and release attempts:
      none of them opens, closes or frees anything. */
  lemma {:induction false} TraceOnlyAttempts(ops: seq<Op>)
    ensures OnlyAttempts(Trace(ops))
  {
    if ops != [] {
      var n := |ops| - 1;
      TraceOnlyAttempts(ops[..n]);
      var front, last := Trace(ops[..n]), OpCalls(ops[n]);
      assert OnlyAttempts(last);
      assert forall j :: 0 <= j < |front + last| ==>
        (front + last)[j] == if j < |front| then front[j] else last[j - |front|];
    }
  }

  /** Performs one operation, keeping only whether it threw. */
  function Perform(s: Session, op: Op): (st: Step<()>)
    ensures st.session.dev == s.dev
    ensures st.calls == OpCalls(op)
    ensures st.result.Ok? <==> !Fails(op)
    ensures st.result.Thrown? ==> st.session == s && st.result.error == Code(op.rc)
  {
    match op
    case GetConfigurationOp(rc, configuration) =>
      var g := GetConfiguration(s, rc, configuration);
      Step(if g.result.Ok? then Ok(()) else Thrown(g.result.error), g.session, g.calls)
    case SetConfigurationOp(configuration, rc) => SetConfiguration(s, configuration, rc)
    case KernelDriverActiveOp(rc) =>
      var k := IsKernelDriverActive(s, rc);
      Step(if k.result.Ok? then Ok(()) else Thrown(k.result.error), k.session, k.calls)
    case DetachKernelDriverOp(rc) => DetachKernelDriver(s, rc)
    case ClaimOp(iface, rc) => ClaimInterface(s, iface, rc)
    case ReleaseOp(iface, rc) => ReleaseInterface(s, iface, rc)
  }

  /** Whether `op` throws; it does not depend on the session. */
  predicate Fails(op: Op)
  {
    match op
    case KernelDriverActiveOp(rc) => rc != 0 && rc != 1
    case _ => op.rc < 0
  }

  predicate SucceedsClaim(op: Op)
  {
    op.ClaimOp? && op.rc >= 0
  }

  predicate SucceedsRelease(op: Op)
  {
    op.ReleaseOp? && op.rc >= 0
  }

  /** The session after a series of operations whose exceptions the caller
      caught one by one. */
  function Drive(s: Session, ops: seq<Op>): (t: Session)
    ensures t.dev == s.dev
  {
    if ops == [] then s else Perform(Drive(s, ops[..|ops| - 1]), ops[|ops| - 1]).session
  }

  /** The flag records exactly the last interface change that succeeded:
      after any series of operations it is set iff some claim succeeded and
      no release succeeded after it, or it was set at the start and no
      release succeeded since. */
  lemma {:induction false} DriveClaimed(s: Session, ops: seq<Op>)
    ensures Drive(s, ops).claimed <==>
      || (exists i :: 0 <= i < |ops| && SucceedsClaim(ops[i])
            && forall j :: i < j < |ops| ==> !SucceedsRelease(ops[j]))
      || (s.claimed && forall j :: 0 <= j < |ops| ==> !SucceedsRelease(ops[j]))
  {
    if ops != [] {
      var n := |ops| - 1;
      var init := ops[..n];
      DriveClaimed(s, init);
      var op := ops[n];
      var before := Drive(s, init);
      PerformClaimed(before, op);
      assert forall j :: 0 <= j < n ==> init[j] == ops[j];
      if SucceedsClaim(op) {
        assert SucceedsClaim(ops[n]);
      } else if SucceedsRelease(op) {
        assert !Drive(s, ops).claimed;
      } else {
        if before.claimed {
          if s.claimed && forall j :: 0 <= j < n ==> !SucceedsRelease(init[j]) {
          } else {
            var i :| 0 <= i < n && SucceedsClaim(init[i]) && forall j :: i < j < n ==> !SucceedsRelease(init[j]);
            assert SucceedsClaim(ops[i]);
          }
        }
      }
    }
  }

  /** One operation moves the flag only through a successful claim or release. */
  lemma PerformClaimed(s: Session, op: Op)
    ensures Perform(s, op).session.claimed <==>
      SucceedsClaim(op) || (s.claimed && !SucceedsRelease(op))
  {
  }

  predicate NoneFails(ops: seq<Op>)
  {
    forall i :: 0 <= i < |ops| ==> !Fails(ops[i])
  }

  /** Operation `i` is the first of `ops` that throws. */
  predicate IsFirstFailing(ops: seq<Op>, i: int)
  {
    && 0 <= i < |ops|
    && Fails(ops[i])
    && forall j :: 0 <= j < i ==> !Fails(ops[j])
  }

  /** Runs operations in order inside one C++ scope: the first that throws
      ends the run, its exception escapes, and no later operation is made. */
  function RunUntilThrow(s: Session, ops: seq<Op>): (st: Step<()>)
    ensures st.session.dev == s.dev
    ensures st.result.Ok? <==> NoneFails(ops)
    ensures st.result.Ok? ==> st.session == Drive(s, ops) && st.calls == Trace(ops)
    decreases |ops|
  {
    if ops == [] then Step(Ok(()), s, [])
    else
      var n := |ops| - 1;
      var first := RunUntilThrow(s, ops[..n]);
      if first.result.Thrown? then first
      else
        assert forall i :: 0 <= i < n ==> ops[..n][i] == ops[i];
        var last := Perform(first.session, ops[n]);
        Step(last.result, last.session, first.calls + last.calls)
  }

  /** When a run throws, the exception is the first failing operation's, and
      the operations after it were never made. */
  lemma {:induction false} RunUntilThrowFails(s: Session, ops: seq<Op>, i: int)
    requires IsFirstFailing(ops, i)
    ensures var st := RunUntilThrow(s, ops);
      && st.result == Thrown(Code(ops[i].rc))
      && st.calls == Trace(ops[..i + 1])
    decreases |ops|
  {
    var n := |ops| - 1;
    if i < n {
      EarlierFails(ops, i);
      RunUntilThrowFails(s, ops[..n], i);
      assert ops[..n][..i + 1] == ops[..i + 1];
    } else {
      LastFails(s, ops);
      assert ops[..i + 1] == ops;
    }
  }

  lemma EarlierFails(ops: seq<Op>, i: int)
    requires IsFirstFailing(ops, i) && i < |ops| - 1
    ensures IsFirstFailing(ops[..|ops| - 1], i)
  {
    var init := ops[..|ops| - 1];
    assert forall j :: 0 <= j <= i ==> init[j] == ops[j];
  }

  /** A run whose operations all succeed but the last throws that one's code. */
  lemma LastFails(s: Session, ops: seq<Op>)
    requires |ops| > 0 && IsFirstFailing(ops, |ops| - 1)
    ensures RunUntilThrow(s, ops).result == Thrown(Code(ops[|ops| - 1].rc))
    ensures RunUntilThrow(s, ops).calls == Trace(ops)
  {
    var n := |ops| - 1;
    var init := ops[..n];
    assert NoneFails(init) by {
      assert forall j :: 0 <= j < n ==> init[j] == ops[j];
    }
  }

  /** Whenever some operation throws, a first one does. */
  lemma {:induction false} FirstFailingExists(ops: seq<Op>, i: int)
    requires 0 <= i < |ops| && Fails(ops[i])
    ensures exists k :: IsFirstFailing(ops, k)
    decreases i
  {
    if exists j :: 0 <= j < i && Fails(ops[j]) {
      var j :| 0 <= j < i && Fails(ops[j]);
      FirstFailingExists(ops, j);
    } else {
      assert IsFirstFailing(ops, i);
    }
  }
}

=== FILE: string_descriptor.dfy ===
/** `usb_device::string_descriptor`: reading a USB string descriptor and
    turning its UTF-16LE payload into UTF-8.

    The native part is two control transfers: a 2-byte probe whose result
    code and first byte (the descriptor's total length) are `probeRc` and
    `probeLen`, then a full read of `probeLen` bytes whose result code is
    `readRc` and whose bytes are `buf`.  Everything after that is pure:
    the parity check on the payload length, the little-endian pairing into
    16-bit code units with a terminating 0, the cut at the first 0 unit
    (`std::wstring ws(utf16)`) and the UTF-8 transcoding.  Every check that
    fails yields the empty string; a code unit the transcoder cannot
    encode makes `to_bytes` throw `std::range_error`, which escapes.
 */
module StringDescriptors {
  import opened Native
  import opened Utf8

  /** The probe returned both header bytes with a non-zero length, and the
      full read returned exactly that many bytes. */
  predicate ReadSucceeded(probeRc: int, probeLen: byte, readRc: int)
  {
    probeRc == 2 && probeLen > 0 && readRc == probeLen
  }

  /** What the decoder needs of a successful read for its behaviour to be
      defined: the buffer holds the probed length, both header pointers stay
      inside it, and the length byte is not 0 (with 0 the payload length is
      -2, which passes the parity check and sizes the `utf16` array at 0,
      so its terminator is written before the array). */
  predicate WellFormedRead(probeLen: byte, buf: seq<byte>)
  {
    |buf| == probeLen && |buf| >= 2 && 1 <= buf[0] <= probeLen
  }

  /** The bytes after the 2-byte header, when the reads succeeded and the
      payload length `buf[0] - 2` is even.  That length is -1 when
      `buf[0] == 1`: C++ gives `-1 % 2 == -1` and Dafny gives 1, and both
      reject it, so the test reads the same in either language. */
  function Payload(probeRc: int, probeLen: byte, readRc: int, buf: seq<byte>): (p: Option<seq<byte>>)
    requires ReadSucceeded(probeRc, probeLen, readRc) ==> WellFormedRead(probeLen, buf)
    ensures p.Some? <==> ReadSucceeded(probeRc, probeLen, readRc) && (buf[0] as int - 2) % 2 == 0
    ensures p.Some? ==> |p.value| % 2 == 0 && 2 + |p.value| == buf[0] && p.value == buf[2..buf[0]]
  {
    if ReadSucceeded(probeRc, probeLen, readRc) && (buf[0] as int - 2) % 2 == 0 then Some(buf[2..buf[0]])
    else None
  }

  /** Consecutive byte pairs `(payload[2i], payload[2i+1])`. */
  function BytePairs(payload: seq<byte>): (pairs: seq<(byte, byte)>)
    requires |payload| % 2 == 0
    ensures |pairs| == |payload| / 2
    ensures forall i :: 0 <= i < |pairs| ==> pairs[i] == (payload[2 * i], payload[2 * i + 1])
    decreases |payload|
  {
    if payload == [] then [] else [(payload[0], payload[1])] + BytePairs(payload[2..])
  }

  /** `lo | (hi << 8)` on unsigned bytes: the little-endian 16-bit code unit. */
  function LittleEndianUnit(lo: byte, hi: byte): (u: int)
    ensures u == lo as int + 0x100 * (hi as int)
  {
    OrShift8Value(lo, hi);
    OrShift8(lo, hi)
  }

  /** The `utf16` array of the source without its terminator: one code unit per byte pair. */
  function Units(payload: seq<byte>): (units: seq<int>)
    requires |payload| % 2 == 0
    ensures |units| == |payload| / 2
    ensures forall i :: 0 <= i < |units| ==> units[i] == payload[2 * i] as int + 0x100 * (payload[2 * i + 1] as int)
  {
    var pairs := BytePairs(payload);
    seq(|pairs|, i requires 0 <= i < |pairs| => LittleEndianUnit(pairs[i].0, pairs[i].1))
  }

  /** `std::wstring(const wchar_t*)`: the units before the first 0. */
  function UntilNul(wide: seq<int>): (text: seq<int>)
    ensures |text| <= |wide|
    ensures forall i :: 0 <= i < |text| ==> text[i] == wide[i] && text[i] != 0
    ensures |text| < |wide| ==> wide[|text|] == 0
    ensures 0 in wide ==> |text| < |wide|
  {
    if wide == [] || wide[0] == 0 then [] else [wide[0]] + UntilNul(wide[1..])
  }

  /** `wstring_convert<codecvt_utf8<wchar_t>>::to_bytes`: the UTF-8 encoding
      of the units, or `std::range_error` when one of them is not a Unicode
      scalar value (a surrogate, or a `wchar_t` above U+10FFFF). */
  function Transcode(wide: seq<int>): (r: Result<seq<byte>>)
    ensures r.Ok? <==> AllScalars(wide)
    ensures r.Ok? ==> Decode(r.value) == Some(wide)
    ensures r.Thrown? ==> r.error == RangeError
  {
    if AllScalars(wide) then DecodeEncode(wide); Ok(Encode(wide)) else Thrown(RangeError)
  }

  /** The decoder. */
  function StringDescriptor(probeRc: int, probeLen: byte, readRc: int, buf: seq<byte>): (r: Result<seq<byte>>)
    requires ReadSucceeded(probeRc, probeLen, readRc) ==> WellFormedRead(probeLen, buf)
    ensures !(ReadSucceeded(probeRc, probeLen, readRc) && (buf[0] as int - 2) % 2 == 0) ==> r == Ok([])
    ensures r.Thrown? ==> r.error == RangeError
  {
    match Payload(probeRc, probeLen, readRc, buf)
    case None => Ok([])
    case Some(payload) => Transcode(UntilNul(Units(payload) + [0]))
  }

  // ---------------------------------------------------------------------
  // What the decoded text is, stated on the descriptor bytes themselves.

  /** A descriptor buffer whose payload length is even. */
  predicate EvenDescriptor(buf: seq<byte>)
  {
    |buf| >= 2 && 2 <= buf[0] <= |buf| && buf[0] % 2 == 0
  }

  function UnitCount(buf: seq<byte>): nat
    requires EvenDescriptor(buf)
  {
    (buf[0] - 2) / 2
  }

  /** Code unit `i` of the descriptor: bytes `2 + 2i` (low) and `3 + 2i` (high). */
  function CodeUnit(buf: seq<byte>, i: nat): int
    requires EvenDescriptor(buf) && i < UnitCount(buf)
  {
    buf[2 + 2 * i] as int + 0x100 * (buf[3 + 2 * i] as int)
  }

  predicate NoNulBefore(buf: seq<byte>, i: nat)
    requires EvenDescriptor(buf) && i <= UnitCount(buf)
  {
    forall j :: 0 <= j < i ==> CodeUnit(buf, j) != 0
  }

  /** `text` is the descriptor's text: its code units up to, not including,
      the first 0 unit (or all of them when there is none). */
  predicate IsDescriptorText(buf: seq<byte>, text: seq<int>)
    requires EvenDescriptor(buf)
  {
    && |text| <= UnitCount(buf)
    && (forall i :: 0 <= i < |text| ==> text[i] == CodeUnit(buf, i))
    && NoNulBefore(buf, |text|)
    && (|text| < UnitCount(buf) ==> CodeUnit(buf, |text|) == 0)
  }

  /** The transcoder fails exactly when a surrogate unit comes before the first 0 unit. */
  predicate HasSurrogateInText(buf: seq<byte>)
    requires EvenDescriptor(buf)
  {
    exists i :: 0 <= i < UnitCount(buf) && NoNulBefore(buf, i) && IsSurrogate(CodeUnit(buf, i))
  }

  lemma TextOfDescriptor(buf: seq<byte>)
    requires EvenDescriptor(buf)
    ensures |buf[2..buf[0]]| % 2 == 0
    ensures IsDescriptorText(buf, UntilNul(Units(buf[2..buf[0]]) + [0]))
  {
    var payload := buf[2..buf[0]];
    assert |payload| == 2 * UnitCount(buf);
    var units := Units(payload);
    var wide := units + [0];
    var text := UntilNul(wide);
    assert wide[|units|] == 0;
    forall i | 0 <= i < |text|
      ensures text[i] == CodeUnit(buf, i)
    {
      UnitOfPayload(buf, i);
      assert text[i] == wide[i] == units[i];
    }
    if |text| < UnitCount(buf) {
      UnitOfPayload(buf, |text|);
      assert wide[|text|] == units[|text|];
    }
  }

  lemma UnitOfPayload(buf: seq<byte>, i: nat)
    requires EvenDescriptor(buf) && i < UnitCount(buf)
    ensures |buf[2..buf[0]]| == 2 * UnitCount(buf)
    ensures Units(buf[2..buf[0]])[i] == CodeUnit(buf, i)
  {
    var payload := buf[2..buf[0]];
    assert payload[2 * i] == buf[2 + 2 * i] && payload[2 * i + 1] == buf[3 + 2 * i];
  }

  /** When the reads and the parity check pass, the decoder either returns the
      UTF-8 encoding of the descriptor's text or throws `std::range_error`,
      and it throws exactly when that text holds a surrogate. */
  lemma StringDescriptorText(probeRc: int, probeLen: byte, readRc: int, buf: seq<byte>)
    requires ReadSucceeded(probeRc, probeLen, readRc) && WellFormedRead(probeLen, buf)
    requires (buf[0] as int - 2) % 2 == 0
    ensures EvenDescriptor(buf)
    ensures var r := StringDescriptor(probeRc, probeLen, readRc, buf);
      && (r.Thrown? <==> HasSurrogateInText(buf))
      && (r.Ok? ==> Decode(r.value).Some? && IsDescriptorText(buf, Decode(r.value).value))
  {
    var text := TranscodedText(probeRc, probeLen, readRc, buf);
    TextOfDescriptor(buf);
    SurrogateInText(buf, text);
  }

  /** What the decoder hands to the transcoder. */
  lemma TranscodedText(probeRc: int, probeLen: byte, readRc: int, buf: seq<byte>) returns (text: seq<int>)
    requires ReadSucceeded(probeRc, probeLen, readRc) && WellFormedRead(probeLen, buf)
    requires (buf[0] as int - 2) % 2 == 0
    ensures EvenDescriptor(buf) && |buf[2..buf[0]]| % 2 == 0
    ensures text == UntilNul(Units(buf[2..buf[0]]) + [0])
    ensures StringDescriptor(probeRc, probeLen, readRc, buf) == Transcode(text)
  {
    assert EvenDescriptor(buf);
    var payload := buf[2..buf[0]];
    assert Payload(probeRc, probeLen, readRc, buf) == Some(payload);
    text := UntilNul(Units(payload) + [0]);
  }

  /** The descriptor's text holds a non-scalar unit exactly when it holds a
      surrogate: 16-bit units never exceed U+10FFFF. */
  lemma SurrogateInText(buf: seq<byte>, text: seq<int>)
    requires EvenDescriptor(buf) && IsDescriptorText(buf, text)
    ensures !AllScalars(text) <==> HasSurrogateInText(buf)
  {
    if HasSurrogateInText(buf) {
      var i :| 0 <= i < UnitCount(buf) && NoNulBefore(buf, i) && IsSurrogate(CodeUnit(buf, i));
      assert i < |text|;
      assert !IsScalar(text[i]);
    } else {
      forall i | 0 <= i < |text|
        ensures IsScalar(text[i])
      {
        assert NoNulBefore(buf, i);
      }
    }
  }

  // ---------------------------------------------------------------------
  // Building descriptors: the decoder inverts the UTF-16LE layout.

  predicate IsCodeUnit(u: int)
  {
    0 <= u < 0x1_0000
  }

  /** UTF-16LE bytes of a sequence of 16-bit code units, low byte first. */
  function Utf16Le(units: seq<int>): (bs: seq<byte>)
    requires forall i :: 0 <= i < |units| ==> IsCodeUnit(units[i])
    ensures |bs| == 2 * |units|
  {
    if units == [] then []
    else
      assert IsCodeUnit(units[0]);
      var lo: byte, hi: byte := units[0] % 0x100, units[0] / 0x100;
      [lo, hi] + Utf16Le(units[1..])
  }

  /** Unit `i` occupies bytes `2i` (low) and `2i + 1` (high). */
  lemma {:induction false} Utf16LeBytes(units: seq<int>, i: nat)
    requires forall j :: 0 <= j < |units| ==> IsCodeUnit(units[j])
    requires i < |units|
    ensures Utf16Le(units)[2 * i] == units[i] % 0x100
    ensures Utf16Le(units)[2 * i + 1] == units[i] / 0x100
    decreases i
  {
    if i > 0 {
      var rest := units[1..];
      assert forall j :: 0 <= j < |rest| ==> rest[j] == units[j + 1];
      Utf16LeBytes(rest, i - 1);
      assert Utf16Le(units)[2..] == Utf16Le(rest);
      assert Utf16Le(units)[2 * i] == Utf16Le(rest)[2 * (i - 1)];
      assert Utf16Le(units)[2 * i + 1] == Utf16Le(rest)[2 * (i - 1) + 1];
    }
  }

  lemma UnitsOfUtf16Le(units: seq<int>)
    requires forall i :: 0 <= i < |units| ==> IsCodeUnit(units[i])
    ensures Units(Utf16Le(units)) == units
  {
    var bs := Utf16Le(units);
    var n := |units|;
    assert |bs| == 2 * n;
    DoubleIsEven(n);
    assert |bs| / 2 == n;
    var us := Units(bs);
    forall i | 0 <= i < n
      ensures us[i] == units[i]
    {
      Utf16LeBytes(units, i);
      UnitOfBytes(bs, i, units[i]);
    }
  }

  /** A unit split into its low and high byte is read back by `Units`. */
  lemma UnitOfBytes(bs: seq<byte>, i: nat, u: int)
    requires |bs| % 2 == 0 && 2 * i + 1 < |bs| && IsCodeUnit(u)
    requires bs[2 * i] == u % 0x100 && bs[2 * i + 1] == u / 0x100
    ensures i < |Units(bs)| && Units(bs)[i] == u
  {
  }

  /** A string descriptor (type 3) whose payload is `units`. */
  function DescriptorOf(units: seq<int>): (buf: seq<byte>)
    requires |units| <= 126 && forall i :: 0 <= i < |units| ==> IsCodeUnit(units[i])
    ensures |buf| == 2 + 2 * |units| && buf[0] == |buf| && buf[1] == 3
    ensures buf[2..] == Utf16Le(units)
  {
    [2 + 2 * |units|, 3] + Utf16Le(units)
  }

  /** Text without 0 units survives the `std::wstring` cut intact. */
  lemma UntilNulOfText(units: seq<int>)
    requires forall i :: 0 <= i < |units| ==> units[i] != 0
    ensures UntilNul(units + [0]) == units
  {
    var wide := units + [0];
    assert wide[|units|] == 0;
    var text := UntilNul(wide);
    assert |text| == |units|;
    assert forall i :: 0 <= i < |units| ==> text[i] == wide[i] == units[i];
  }

  lemma DoubleIsEven(k: int)
    ensures (2 * k) % 2 == 0
  {
  }

  lemma PayloadOfHeader(buf: seq<byte>, payload: seq<byte>)
    requires |buf| >= 2 && buf[0] == |buf| && (|buf| - 2) % 2 == 0 && buf[2..] == payload
    ensures Payload(2, buf[0], buf[0], buf) == Some(payload)
  {
    assert buf[2..buf[0]] == buf[2..];
  }

  lemma PayloadOfDescriptor(units: seq<int>)
    requires |units| <= 126 && forall i :: 0 <= i < |units| ==> IsCodeUnit(units[i])
    ensures var buf := DescriptorOf(units);
      Payload(2, buf[0], buf[0], buf) == Some(buf[2..])
  {
    var buf := DescriptorOf(units);
    DoubleIsEven(|units|);
    PayloadOfHeader(buf, buf[2..]);
  }

  /** Round trip: decoding a descriptor built from text without 0 units and
      surrogates yields that text's UTF-8 encoding. */
  lemma DescriptorRoundTrip(units: seq<int>)
    requires |units| <= 126
    requires forall i :: 0 <= i < |units| ==> IsCodeUnit(units[i]) && units[i] != 0 && !IsSurrogate(units[i])
    ensures AllScalars(units)
    ensures var buf := DescriptorOf(units);
      StringDescriptor(2, buf[0], buf[0], buf) == Ok(Encode(units))
  {
    var buf := DescriptorOf(units);
    PayloadOfDescriptor(units);
    UnitsOfUtf16Le(units);
    UntilNulOfText(units);
    assert StringDescriptor(2, buf[0], buf[0], buf) == Transcode(UntilNul(Units(Utf16Le(units)) + [0]));
  }

  /** A descriptor of printable ASCII text decodes to the same bytes. */
  lemma AsciiDescriptorRoundTrip(units: seq<int>)
    requires |units| <= 126
    requires forall i :: 0 <= i < |units| ==> 0 < units[i] < 0x80
    ensures StringDescriptor(2, 2 + 2 * |units|, 2 + 2 * |units|, DescriptorOf(units)) == Ok(units)
  {
    DescriptorRoundTrip(units);
    EncodeAscii(units);
  }

  /** "USB Device" as code units. */
  const UsbDevice: seq<int> := [0x55, 0x53, 0x42, 0x20, 0x44, 0x65, 0x76, 0x69, 0x63, 0x65]

  /** The synthetic descriptor of "USB Device" (length 2 + 20) decodes to "USB Device". */
  lemma UsbDeviceExample()
    ensures StringDescriptor(2, 22, 22, DescriptorOf(UsbDevice)) == Ok(UsbDevice)
  {
    AsciiDescriptorRoundTrip(UsbDevice);
  }

  // ---------------------------------------------------------------------
  // The pairing as written: `begin` is a `char*`, and `char` is signed on
  // the usual desktop ABIs, so each byte is sign-extended before the `|`.

  /** A byte read through a signed `char` and promoted to a 32-bit `int`. */
  function SignExtend(b: bv8): bv32
  {
    if b < 0x80 then b as bv32 else (b as bv32) | 0xFFFF_FF00
  }

  /** `begin[2i] | (begin[2i+1] << 8)` with signed `char`, as the unsigned
      32-bit value the transcoder examines. */
  function SignedCharUnit(lo: byte, hi: byte): int
  {
    SignedCharBitsValue(lo as bv8, hi as bv8)
  }

  function SignedCharBitsValue(l: bv8, h: bv8): int
  {
    (SignExtend(l) | (SignExtend(h) << 8)) as int
  }

  function SignedCharUnits(payload: seq<byte>): (units: seq<int>)
    requires |payload| % 2 == 0
    ensures |units| == |payload| / 2
  {
    var pairs := BytePairs(payload);
    seq(|pairs|, i requires 0 <= i < |pairs| => SignedCharUnit(pairs[i].0, pairs[i].1))
  }

  /** The decoder as written, on a platform whose `char` is signed. */
  function StringDescriptorAsWritten(probeRc: int, probeLen: byte, readRc: int, buf: seq<byte>): (r: Result<seq<byte>>)
    requires ReadSucceeded(probeRc, probeLen, readRc) ==> WellFormedRead(probeLen, buf)
    ensures !(ReadSucceeded(probeRc, probeLen, readRc) && (buf[0] as int - 2) % 2 == 0) ==> r == Ok([])
  {
    match Payload(probeRc, probeLen, readRc, buf)
    case None => Ok([])
    case Some(payload) => Transcode(UntilNul(SignedCharUnits(payload) + [0]))
  }

  /** The value of the bit operations on two sign-extended bytes. */
  lemma SignedCharBits(l: bv8, h: bv8)
    ensures SignedCharBitsValue(l, h)
      == if l >= 0x80 then 0xFFFF_FF00 + l as int
         else if h >= 0x80 then 0xFFFF_0000 + 0x100 * (h as int) + l as int
         else 0x100 * (h as int) + l as int
  {
    var x: bv32 := if l < 0x80 then l as bv32 else (l as bv32) | 0xFFFF_FF00;
    var y: bv32 := if h < 0x80 then h as bv32 else (h as bv32) | 0xFFFF_FF00;
    assert SignExtend(l) == x && SignExtend(h) == y;
    SignedCharOr(l, h);
  }

  lemma SignedCharOr(l: bv8, h: bv8)
    ensures var x: bv32 := if l < 0x80 then l as bv32 else (l as bv32) | 0xFFFF_FF00;
      var y: bv32 := if h < 0x80 then h as bv32 else (h as bv32) | 0xFFFF_FF00;
      (x | (y << 8)) as int
        == if l >= 0x80 then 0xFFFF_FF00 + l as int
           else if h >= 0x80 then 0xFFFF_0000 + 0x100 * (h as int) + l as int
           else 0x100 * (h as int) + l as int
  {
  }

  /** `SignedCharUnit` in ordinary arithmetic: a byte of 0x80 or more sets
      every bit above it.  When the high byte is 0x80 or more, the `<< 8`
      shifts a negative `int`, which is undefined before C++20; the value
      here is the two's-complement result that C++20 defines and that GCC
      and Clang produce. */
  lemma SignedCharUnitValue(lo: byte, hi: byte)
    ensures SignedCharUnit(lo, hi)
      == if lo >= 0x80 then 0xFFFF_FF00 + lo
         else if hi >= 0x80 then 0xFFFF_0000 + 0x100 * (hi as int) + lo
         else 0x100 * (hi as int) + lo
  {
    ByteBits(lo);
    ByteBits(hi);
    SignedCharBits(lo as bv8, hi as bv8);
  }

  /** With both bytes below 0x80 the signed reading agrees with the unsigned one. */
  lemma SignedCharUnitAscii(lo: byte, hi: byte)
    requires lo < 0x80 && hi < 0x80
    ensures SignedCharUnit(lo, hi) == LittleEndianUnit(lo, hi)
  {
    SignedCharUnitValue(lo, hi);
  }

  /** A byte of 0x80 or more in either position turns the unit into a value
      far above U+10FFFF, which the transcoder rejects. */
  lemma SignedCharUnitOutOfRange(lo: byte, hi: byte)
    requires lo >= 0x80 || hi >= 0x80
    ensures SignedCharUnit(lo, hi) > 0x10FFFF
  {
    SignedCharUnitValue(lo, hi);
  }

  /** A length byte of 1 puts the payload end one byte before its start:
      the odd length -1 fails the parity check and the result is empty. */
  lemma LengthByteOne()
    ensures StringDescriptor(2, 4, 4, [1, 3, 0, 0]) == Ok([])
    ensures StringDescriptor(2, 2, 2, [1, 3]) == Ok([])
  {
  }

  /** "é" (U+00E9, bytes E9 00): the decoder as written throws
      `std::range_error`, where the unsigned reading yields C3 A9. */
  lemma LatinSmallEAcute()
    ensures StringDescriptorAsWritten(2, 4, 4, [4, 3, 0xE9, 0x00]) == Thrown(RangeError)
    ensures StringDescriptor(2, 4, 4, [4, 3, 0xE9, 0x00]) == Ok([0xC3, 0xA9])
  {
    var buf := DescriptorOf([0xE9]);
    assert buf == [4, 3, 0xE9, 0x00];
    DescriptorRoundTrip([0xE9]);
    assert Encode([0xE9]) == [0xC3, 0xA9];

    PayloadOfHeader(buf, [0xE9, 0x00]);
    var signed := SignedCharUnits([0xE9, 0x00]);
    assert signed[0] == SignedCharUnit(0xE9, 0x00);
    SignedCharUnitOutOfRange(0xE9, 0x00);
    var wide := signed + [0];
    assert wide[0] == signed[0] && wide[1] == 0;
    var text := UntilNul(wide);
    assert |text| == 1 && !IsScalar(text[0]);
  }
}

=== FILE: testmode.dfy ===
/** The `TEST_MODE` block of `main` (src/lud.cpp): find the first device with
    vendor 0x04c5 and product 0x11a6, open it, detach a kernel driver if one
    is active, read the configuration, set configuration 0 and then 1, claim
    interface 0 and release it again.

    `find_devices` and `open` each enumerate the bus afresh, so the two
    enumerations are separate inputs.  `main` calls through the pointer
    `open` returns without checking it; that call is the `NullDereference`
    outcome here.
 */
module TestMode {
  import opened Native
  import opened Devices
  import opened Sessions
  import opened Manager

  const TestVendor := 0x04c5
  const TestProduct := 0x11a6

  /** What the native calls on the opened device return. */
  datatype Replies = Replies(
    kernelActiveRc: int,
    detachRc: int,
    getConfigurationRc: int,
    configuration: int,
    setZeroRc: int,
    setOneRc: int,
    claimRc: int,
    releaseRc: int)

  /** If the bus did not change between the two enumerations, the device
      `find_devices` reported is found again by `open`. */
  lemma {:induction false} UnchangedBusFindsDevice(vid: int, pid: int, es: seq<Entry>)
    requires Selected(vid, pid, es) != []
    ensures exists k :: IsFirstMatch(es, Selected(vid, pid, es)[0], k)
  {
    var id := Selected(vid, pid, es)[0];
    SelectedMembers(vid, pid, es, id);
    var i :| 0 <= i < |es| && Matches(vid, pid, es[i]) && EntryId(es[i]) == id;
    FirstMatchExists(es, id, i);
  }

  /** The calls made on the opened device after the kernel-driver query:
      the detach when a driver is active, reading the configuration, setting
      configuration 0 and then 1, claiming interface 0 and releasing it. */
  function SessionOps(detach: bool, p: Replies): (ops: seq<Op>)
    ensures |ops| >= 2
    ensures ops[|ops| - 2] == ClaimOp(0, p.claimRc) && ops[|ops| - 1] == ReleaseOp(0, p.releaseRc)
    ensures forall i :: 0 <= i < |ops| - 2 ==> !ops[i].ClaimOp? && !ops[i].ReleaseOp?
  {
    (if detach then [DetachKernelDriverOp(p.detachRc)] else [])
      + [GetConfigurationOp(p.getConfigurationRc, p.configuration),
         SetConfigurationOp(0, p.setZeroRc), SetConfigurationOp(1, p.setOneRc),
         ClaimOp(0, p.claimRc), ReleaseOp(0, p.releaseRc)]
  }

  /** Operations that neither claim nor release make no resource calls. */
  lemma {:induction false} TraceOfQuiet(ops: seq<Op>)
    requires forall i :: 0 <= i < |ops| ==> !ops[i].ClaimOp? && !ops[i].ReleaseOp?
    ensures Trace(ops) == []
  {
    if ops != [] {
      var n := |ops| - 1;
      assert forall i :: 0 <= i < n ==> ops[..n][i] == ops[i];
      TraceOfQuiet(ops[..n]);
    }
  }

  /** When every session step succeeds, the steps claim and release
      interface 0 once each, and leave nothing claimed. */
  lemma SessionOpsSucceed(s: Session, detach: bool, p: Replies)
    requires NoneFails(SessionOps(detach, p))
    ensures Trace(SessionOps(detach, p)) == [ClaimAttempt(0), ReleaseAttempt(0)]
    ensures !Drive(s, SessionOps(detach, p)).claimed
  {
    var ops := SessionOps(detach, p);
    var n := |ops| - 1;
    var quiet := ops[..n - 1];
    assert forall i :: 0 <= i < n - 1 ==> quiet[i] == ops[i];
    TraceOfQuiet(quiet);
    assert ops[..n][..n - 1] == quiet;
    assert !Fails(ops[n]);
  }

  /** The kernel-driver query answers "no driver" (0) or "driver active" (1);
      any other code is thrown. */
  predicate QueryAnswers(p: Replies)
  {
    p.kernelActiveRc == 0 || p.kernelActiveRc == 1
  }

  /** The steps after a query that answered. */
  function Steps(p: Replies): seq<Op>
  {
    SessionOps(p.kernelActiveRc == 1, p)
  }

  /** The test steps on the opened device, up to the end of the block, where
      the handle is destroyed.  By then the interface is released, so the
      destructor makes no release call and only closes the handle.  A step
      that throws leaves `main` with no handler, so the handle is never
      destroyed: only the claim and release attempts made so far remain. */
  method Exercise(s: Session, p: Replies) returns (r: Result<()>, calls: seq<Call>)
    requires !s.claimed
    ensures r.Ok? <==> QueryAnswers(p) && NoneFails(Steps(p))
    ensures !QueryAnswers(p) ==> r == Thrown(Code(p.kernelActiveRc)) && calls == []
    ensures QueryAnswers(p) ==> forall i | IsFirstFailing(Steps(p), i) ::
      r == Thrown(Code(Steps(p)[i].rc)) && calls == Trace(Steps(p)[..i + 1])
    ensures r.Thrown? ==> r.error.Code? && OnlyAttempts(calls)
    ensures r.Ok? ==> calls == [ClaimAttempt(0), ReleaseAttempt(0), CloseHandle(s.dev)]
  {
    var active := IsKernelDriverActive(s, p.kernelActiveRc);
    if active.result.Thrown? {
      return Thrown(active.result.error), [];
    }
    var ops := SessionOps(active.result.value, p);
    var run := RunUntilThrow(s, ops);
    if run.result.Thrown? {
      var i :| 0 <= i < |ops| && Fails(ops[i]);
      FirstFailingExists(ops, i);
      var first :| IsFirstFailing(ops, first);
      RunUntilThrowFails(s, ops, first);
      TraceOnlyAttempts(ops[..first + 1]);
      forall i | IsFirstFailing(ops, i) ensures i == first {
      }
      return run.result, run.calls;
    }
    SessionOpsSucceed(s, active.result.value, p);
    calls := run.calls + Destroy(run.session, 0);
    r := Ok(());
  }

  /** The calls a callee made before its `scope_exit` freed the device list.
      When the callee's exception leaves `main`, no handler catches it and the
      program ends without unwinding (what GCC and Clang do), so that free
      never happens. */
  function BeforeListFree(calls: seq<Call>): (made: seq<Call>)
    ensures calls == made || calls == made + [FreeDeviceList]
  {
    if calls != [] && calls[|calls| - 1] == FreeDeviceList then calls[..|calls| - 1] else calls
  }

  /** The test sequence.  An exception escaping `main` ends the program
      without unwinding, so on every thrown outcome `calls` holds the native
      calls made until the throw, and no `scope_exit` or destructor runs after
      it.  Only when every step succeeds is the device destroyed at the end of
      the block. */
  method RunTestMode(findRc: int, found: seq<Entry>, openListRc: int, listed: seq<Entry>,
                     allocationFails: bool, p: Replies)
    returns (r: Result<bool>, calls: seq<Call>)
    ensures r == Ok(false) <==>
      findRc >= 0 && DescriptorsReadable(found) && Selected(TestVendor, TestProduct, found) == []
    ensures r == Ok(false) ==> calls == [FreeDeviceList]
    ensures findRc < 0 ==> r == Thrown(Code(findRc)) && calls == []
    ensures findRc >= 0 ==> forall k | IsFirstDescriptorFailure(found, k) ::
      r == Thrown(Code(found[k].descriptorRc)) && calls == []
    ensures findRc >= 0 && DescriptorsReadable(found) && Selected(TestVendor, TestProduct, found) != [] ==>
      if openListRc < 0 then
        r == Thrown(Code(openListRc)) && calls == [FreeDeviceList]
      else
        var id := Selected(TestVendor, TestProduct, found)[0];
        && ((forall j :: 0 <= j < |listed| ==> EntryId(listed[j]) != id) ==>
              r == Thrown(NullDereference) && calls == [FreeDeviceList, FreeDeviceList])
        && forall k | IsFirstMatch(listed, id, k) ::
             if listed[k].openRc < 0 then
               r == Thrown(Code(listed[k].openRc)) && calls == [FreeDeviceList]
             else if allocationFails then
               r == Thrown(BadAlloc) && calls == [FreeDeviceList, OpenHandle(k), CloseHandle(k)]
             else if listed[k].configRc < 0 then
               r == Thrown(Terminated) && calls == [FreeDeviceList, OpenHandle(k)]
             else
               && |calls| >= 4
               && calls[..4] == [FreeDeviceList, OpenHandle(k), FreeConfigDescriptor(k), FreeDeviceList]
               && (r.Ok? <==> QueryAnswers(p) && NoneFails(Steps(p)))
               && (!QueryAnswers(p) ==> r == Thrown(Code(p.kernelActiveRc)) && |calls| == 4)
               && (QueryAnswers(p) ==> forall i | IsFirstFailing(Steps(p), i) ::
                     r == Thrown(Code(Steps(p)[i].rc)) && calls[4..] == Trace(Steps(p)[..i + 1]))
               && (r.Thrown? ==> r.error.Code? && OnlyAttempts(calls[4..]))
               && (r.Ok? ==> r == Ok(true) && calls[4..] == [ClaimAttempt(0), ReleaseAttempt(0), CloseHandle(k)])
    ensures r == Thrown(NullDereference) <==>
      && findRc >= 0 && DescriptorsReadable(found) && Selected(TestVendor, TestProduct, found) != []
      && openListRc >= 0
      && forall j :: 0 <= j < |listed| ==> EntryId(listed[j]) != Selected(TestVendor, TestProduct, found)[0]
    ensures r == Ok(true) ==>
      && Selected(TestVendor, TestProduct, found) != []
      && exists k :: IsFirstMatch(listed, Selected(TestVendor, TestProduct, found)[0], k)
           && calls == [FreeDeviceList, OpenHandle(k), FreeConfigDescriptor(k), FreeDeviceList,
                        ClaimAttempt(0), ReleaseAttempt(0), CloseHandle(k)]
  {
    var ids;
    ids, calls := FindDevices(TestVendor, TestProduct, findRc, found);
    DescriptorFailureOrReadable(found);
    if ids.Thrown? {
      return Thrown(ids.error), BeforeListFree(calls);
    }
    if |ids.value| == 0 {
      return Ok(false), calls;
    }
    var deviceId := ids.value[0];
    var handle, openCalls := Open(deviceId, openListRc, listed, allocationFails);
    NoMatchOrFirstMatch(listed, deviceId);
    if handle.Thrown? {
      return Thrown(handle.error), calls + BeforeListFree(openCalls);
    }
    calls := calls + openCalls;
    if handle.value.None? {
      return Thrown(NullDereference), calls;
    }
    var k :| IsFirstMatch(listed, deviceId, k);
    assert handle.value.value == Opened(k);
    var done, exercised := Exercise(handle.value.value, p);
    assert (calls + exercised)[4..] == exercised;
    calls := calls + exercised;
    if done.Thrown? {
      return Thrown(done.error), calls;
    }
    r := Ok(true);
  }
}

=== FILE: utf8.dfy ===
/** UTF-8 as defined in section 3 of RFC 3629: the encoding of Unicode
    scalar values into one to four octets, and the strict decoding that
    rejects overlong forms, surrogates and values above U+10FFFF.

    The wrapper's decoder hands its code units to
    `std::wstring_convert<std::codecvt_utf8<wchar_t>>::to_bytes`; `Encode`
    is what that transcoder produces for valid input, and `Decode` is its
    inverse, used here to state what the produced bytes mean.
 */
module Utf8 {
  import opened Native

  predicate IsSurrogate(u: int)
  {
    0xD800 <= u <= 0xDFFF
  }

  /** A Unicode scalar value: the code points UTF-8 can encode. */
  predicate IsScalar(u: int)
  {
    0 <= u <= 0x10FFFF && !IsSurrogate(u)
  }

  predicate IsContinuation(b: byte)
  {
    0x80 <= b < 0xC0
  }

  /** The octet sequence of one scalar value (the table in section 3 of RFC 3629). */
  function EncodeScalar(u: int): (bs: seq<byte>)
    requires IsScalar(u)
    ensures 1 <= |bs| <= 4
    ensures |bs| == 1 <==> u < 0x80
    ensures forall i :: 1 <= i < |bs| ==> IsContinuation(bs[i])
  {
    if u < 0x80 then [u]
    else if u < 0x800 then [0xC0 + u / 0x40, 0x80 + u % 0x40]
    else if u < 0x1_0000 then [0xE0 + u / 0x1000, 0x80 + (u / 0x40) % 0x40, 0x80 + u % 0x40]
    else [0xF0 + u / 0x4_0000, 0x80 + (u / 0x1000) % 0x40, 0x80 + (u / 0x40) % 0x40, 0x80 + u % 0x40]
  }

  predicate AllScalars(us: seq<int>)
  {
    forall i :: 0 <= i < |us| ==> IsScalar(us[i])
  }

  function Encode(us: seq<int>): (bs: seq<byte>)
    requires AllScalars(us)
    ensures |us| <= |bs| <= 4 * |us|
  {
    if us == [] then [] else EncodeScalar(us[0]) + Encode(us[1..])
  }

  /** Decodes the first character of `bs`: its scalar value and octet count. */
  function DecodeFirst(bs: seq<byte>): (r: Option<(int, nat)>)
    requires |bs| > 0
    ensures r.Some? ==> IsScalar(r.value.0) && 1 <= r.value.1 <= |bs|
  {
    var b0: int := bs[0];
    if b0 < 0x80 then Some((b0, 1))
    else if 0xC0 <= b0 < 0xE0 then
      if |bs| < 2 || !IsContinuation(bs[1]) then None
      else
        var u := (b0 - 0xC0) * 0x40 + (bs[1] as int - 0x80);
        if u < 0x80 then None else Some((u, 2))
    else if 0xE0 <= b0 < 0xF0 then
      if |bs| < 3 || !IsContinuation(bs[1]) || !IsContinuation(bs[2]) then None
      else
        var u := (b0 - 0xE0) * 0x1000 + (bs[1] as int - 0x80) * 0x40 + (bs[2] as int - 0x80);
        if u < 0x800 || IsSurrogate(u) then None else Some((u, 3))
    else if 0xF0 <= b0 < 0xF8 then
      if |bs| < 4 || !IsContinuation(bs[1]) || !IsContinuation(bs[2]) || !IsContinuation(bs[3]) then None
      else
        var u := (b0 - 0xF0) * 0x4_0000 + (bs[1] as int - 0x80) * 0x1000 + (bs[2] as int - 0x80) * 0x40 + (bs[3] as int - 0x80);
        if u < 0x1_0000 || u > 0x10FFFF then None else Some((u, 4))
    else None
  }

  /** Strict decoding; `None` for any octet sequence that is not well-formed UTF-8. */
  function Decode(bs: seq<byte>): (r: Option<seq<int>>)
    ensures r.Some? ==> AllScalars(r.value) && |r.value| <= |bs|
    decreases |bs|
  {
    if bs == [] then Some([])
    else match DecodeFirst(bs)
      case None => None
      case Some((u, n)) =>
        match Decode(bs[n..])
        case None => None
        case Some(rest) => Some([u] + rest)
  }

  /** Every value below 2^21 is the sum of its four 6-bit groups (the top one 3 bits). */
  lemma GroupsOf(u: int)
    requires 0 <= u < 0x20_0000
    ensures 0 <= u / 0x4_0000 < 8
    ensures u == (u / 0x4_0000) * 0x4_0000 + ((u / 0x1000) % 0x40) * 0x1000 + ((u / 0x40) % 0x40) * 0x40 + u % 0x40
  {
    var q1 := u / 0x40;
    var q2 := q1 / 0x40;
    var q3 := q2 / 0x40;
    assert u == q1 * 0x40 + u % 0x40;
    assert q1 == q2 * 0x40 + q1 % 0x40;
    assert q2 == q3 * 0x40 + q2 % 0x40;
    assert q2 == u / 0x1000;
    assert q3 == u / 0x4_0000;
  }

  /** Decoding the octets of one scalar yields that scalar, whatever follows. */
  lemma DecodeFirstOfEncoded(u: int, rest: seq<byte>)
    requires IsScalar(u)
    ensures DecodeFirst(EncodeScalar(u) + rest) == Some((u, |EncodeScalar(u)|))
  {
    var bs := EncodeScalar(u) + rest;
    GroupsOf(u);
    var c0, c1, c2, c3 := u / 0x4_0000, (u / 0x1000) % 0x40, (u / 0x40) % 0x40, u % 0x40;
    SixBitGroups(c0, c1, c2, c3);
    if u < 0x80 {
    } else if u < 0x800 {
      assert c0 == 0 && c1 == 0;
      assert bs[0] == 0xC0 + c2 && bs[1] == 0x80 + c3;
    } else if u < 0x1_0000 {
      assert c0 == 0;
      assert bs[0] == 0xE0 + c1 && bs[1] == 0x80 + c2 && bs[2] == 0x80 + c3;
    } else {
      assert bs[0] == 0xF0 + c0 && bs[1] == 0x80 + c1 && bs[2] == 0x80 + c2 && bs[3] == 0x80 + c3;
    }
  }

  /** Round trip: decoding what the transcoder produced gives back the scalars. */
  lemma {:induction false} DecodeEncode(us: seq<int>)
    requires AllScalars(us)
    ensures Decode(Encode(us)) == Some(us)
  {
    if us != [] {
      var head := EncodeScalar(us[0]);
      var bs := Encode(us);
      assert bs == head + Encode(us[1..]);
      DecodeFirstOfEncoded(us[0], Encode(us[1..]));
      assert bs[|head|..] == Encode(us[1..]);
      DecodeEncode(us[1..]);
      assert [us[0]] + us[1..] == us;
    }
  }

  /** Splitting a scalar into 6-bit groups recovers the groups it was built from. */
  lemma SixBitGroups(c0: int, c1: int, c2: int, c3: int)
    requires 0 <= c0 < 8 && 0 <= c1 < 0x40 && 0 <= c2 < 0x40 && 0 <= c3 < 0x40
    ensures var u := c0 * 0x4_0000 + c1 * 0x1000 + c2 * 0x40 + c3;
      && u / 0x4_0000 == c0 && (u / 0x1000) % 0x40 == c1 && (u / 0x40) % 0x40 == c2 && u % 0x40 == c3
      && u / 0x1000 == c0 * 0x40 + c1 && u / 0x40 == c0 * 0x1000 + c1 * 0x40 + c2
  {
    var u := c0 * 0x4_0000 + c1 * 0x1000 + c2 * 0x40 + c3;
    assert u == (c0 * 0x1000 + c1 * 0x40 + c2) * 0x40 + c3;
    assert u / 0x40 == c0 * 0x1000 + c1 * 0x40 + c2;
    assert u / 0x40 == (c0 * 0x40 + c1) * 0x40 + c2;
    assert u / 0x1000 == (u / 0x40) / 0x40;
    assert u / 0x1000 == c0 * 0x40 + c1;
    assert u / 0x4_0000 == (u / 0x1000) / 0x40;
  }

  /** A well-formed first character is exactly the encoding of its scalar value. */
  lemma EncodedFirstOfDecoded(bs: seq<byte>)
    requires |bs| > 0 && DecodeFirst(bs).Some?
    ensures EncodeScalar(DecodeFirst(bs).value.0) == bs[..DecodeFirst(bs).value.1]
  {
    var (u, n) := DecodeFirst(bs).value;
    if n == 2 {
      SixBitGroups(0, 0, bs[0] - 0xC0, bs[1] - 0x80);
    } else if n == 3 {
      SixBitGroups(0, bs[0] - 0xE0, bs[1] - 0x80, bs[2] - 0x80);
    } else if n == 4 {
      SixBitGroups(bs[0] - 0xF0, bs[1] - 0x80, bs[2] - 0x80, bs[3] - 0x80);
    }
  }

  /** The other direction: well-formed UTF-8 is the encoding of what it decodes to,
      so `Encode` is injective and `Decode` loses nothing. */
  lemma {:induction false} EncodeDecode(bs: seq<byte>)
    requires Decode(bs).Some?
    ensures Encode(Decode(bs).value) == bs
    decreases |bs|
  {
    if bs != [] {
      DecodeCons(bs);
      var (u, n) := DecodeFirst(bs).value;
      var rest := Decode(bs[n..]).value;
      EncodedFirstOfDecoded(bs);
      EncodeDecode(bs[n..]);
      JoinEncoded(bs, n, u, rest);
    }
  }

  /** The encodings of a first scalar and of the rest, placed side by side. */
  lemma JoinEncoded(bs: seq<byte>, n: nat, u: int, rest: seq<int>)
    requires n <= |bs| && IsScalar(u) && AllScalars(rest)
    requires EncodeScalar(u) == bs[..n] && Encode(rest) == bs[n..]
    ensures Encode([u] + rest) == bs
  {
    EncodeCons(u, rest);
    assert bs[..n] + bs[n..] == bs;
  }

  /** How `Decode` splits off the first character. */
  lemma DecodeCons(bs: seq<byte>)
    requires bs != [] && Decode(bs).Some?
    ensures DecodeFirst(bs).Some?
    ensures var n := DecodeFirst(bs).value.1;
      Decode(bs[n..]).Some? && Decode(bs).value == [DecodeFirst(bs).value.0] + Decode(bs[n..]).value
  {
  }

  lemma EncodeCons(u: int, rest: seq<int>)
    requires IsScalar(u) && AllScalars(rest)
    ensures AllScalars([u] + rest)
    ensures Encode([u] + rest) == EncodeScalar(u) + Encode(rest)
  {
    var us := [u] + rest;
    assert us[0] == u && us[1..] == rest;
  }

  /** Text made only of ASCII characters is its own UTF-8 encoding. */
  lemma {:induction false} EncodeAscii(us: seq<int>)
    requires forall i :: 0 <= i < |us| ==> 0 <= us[i] < 0x80
    ensures AllScalars(us) && Encode(us) == us
  {
    if us != [] {
      EncodeAscii(us[1..]);
      assert [us[0]] + us[1..] == us;
    }
  }
}
